=== FILE: README.md ===
# universal-model Store: update coalescing, guards and teardown

This project models the core of the `Store` class of universal-model.
The Store watches reactive sub-states and computed selectors for a view framework.
For every consumer it batches the synchronous change callbacks into one deferred flush.
A consumer is a React view, an Angular component instance or a Svelte id.

The model covers four parts of the Store.

- **Coalescer.** Each consumer keeps one pending entry:
  - `viewToNeedsUpdateMap` for React;
  - `componentInstanceToUpdatesMap` for Angular;
  - `idToUpdatesMap` for Svelte.

  The first callback for an idle consumer schedules a `setTimeout(…, 0)`. Every callback merges its key/value into the entry, and the last write wins. The flush reads the entry, applies it and deletes it:
  - React calls `updateView({})` once;
  - Angular assigns each field;
  - Svelte sets the writable that each `state${i}` or `selector${i}` key addresses.

  The three copies in the source share one generic `Coalescer` module over a tagged `Store.Consumer`. The deferred tasks form a FIFO queue, and `Store.RunNext` runs the oldest one.
- **Validation guards.**
  - React accepts a computed ref or a flagged sub-state.
  - The Angular sub-state path accepts only flagged sub-states.
  - The remaining paths accept everything.

  A rejected item throws in the middle of a `forEach`, after the watches for the earlier items are installed.
- **Svelte keys.** Slot `i` is encoded as `state${i}` or `selector${i}`. The flush decodes a key with `startsWith('state')`, then `parseInt(key.slice(5))` or `parseInt(key.slice(8))`.
- **Teardown.**
  - React's effect cleanup calls the stop handles.
  - Angular's wrapped `ngOnDestroy` stops the watches of its own list, then calls the hook it replaced.
  - Svelte's `onDestroy` callbacks read the stop lists when they run.

The whole Store is a state machine, `Store.World`, driven by `Store.Event`s:
- registrations;
- a change of a watched source;
- running the oldest deferred task;
- unmount or destroy.

`Store.Step` performs one event, and `Store.Run` performs a sequence of them.

Teardown does not cancel a queued flush. It only stops watches (src/Store.ts:70, 185, 237, 285, 333), and it never deletes a pending entry or clears a timer. So a flush queued before teardown still runs and delivers, and for Angular it still assigns the destroyed instance's fields (`StoreProperties.TeardownKeepsPendingFlushes`, `StoreProperties.FlushAfterDestroyStillAssigns`).

The main theorem is `StoreInvariants.RunKeepsInv`. It holds for any run in which no Svelte registration cuts off a writable that a still-active watch or a pending key of its id addresses. Along such a run:
- every pending consumer has exactly one queued flush;
- an idle consumer has none;
- every active Svelte watch and every pending Svelte key addresses an existing writable;
- therefore no flush ever throws.

A Svelte id whose watches are all stopped and that is idle may be registered again with fewer items (`StoreProperties.SilencedIdMayShrink`). Teardown alone does not guarantee this: `useStateSvelte` replaces the stop list (src/Store.ts:245), and the `onDestroy` callbacks read the current list, so an earlier registration's watches can outlive a teardown.

Two of the invariant's facts hold on every run, with no condition on the registrations: at most one flush per consumer is queued, and every queued flush finds its consumer's entry (`StoreProperties.RunConsistent`). A callback schedules only when no entry exists, and only a completed flush deletes one. So the only task that can ever throw is a Svelte flush with a key that addresses no writable (`StoreProperties.StepConsistent`). Likewise, on every run every key pending for a Svelte id is one the slot encoder writes, `state<i>` or `selector<i>` (`StoreProperties.RunKeysCanonical`), because only callbacks record keys.

`StoreProperties.ShrinkingReRegistrationStallsChannel` shows that the condition is needed. `useStateSvelte` replaces the stop list and the writables but leaves the old watches running. A later change of a dropped source then queues a key that no writable answers. The flush throws before its `delete`. The entry stays pending with no flush queued, and `StoreProperties.OrphanedEntryIsPermanent` shows that nothing ever queues one again.

## Model

| member | source | states |
|---|---|---|
| SlotKeys.ParseInt | src/Store.ts:261 | `parseInt` yields NaN exactly when the string does not start with a decimal digit |
| SlotKeys.ParseDecimal | src/Store.ts:261 | `parseInt` of the decimal rendering of a natural number gives that number back |
| SlotKeys.Encode | src/Store.ts:274 | the key `state${i}` (or `selector${i}` at src/Store.ts:322) that a callback writes decodes back to the slot it came from |
| SlotKeys.Decode | src/Store.ts:259-263 | a key that decodes addresses the state writables exactly when it starts with `state` |
| SlotKeys.DecodeNone | src/Store.ts:261-263 | decoding fails exactly when no decimal digit follows the 5- or 8-character prefix the key is read with |
| SlotKeys.DecodePrefixed | src/Store.ts:260-263 | `state${i}` decodes to state slot i and `selector${i}` to selector slot i |
| SlotKeys.DecodeEncode | src/Store.ts:260-263 | decoding the key `state${i}` gives state slot i, and decoding `selector${i}` gives selector slot i, for every i |
| SlotKeys.EncodeInjective | src/Store.ts:274 | two different slots never share a key, so sub-state and selector updates of one id never overwrite each other |
| SlotKeys.EncodeCanonical | src/Store.ts:322 | every key a Svelte callback writes decodes back to itself |
| Validation.FirstRejected | src/Store.ts:80-83 | the position where the guard throws: none iff the guard accepts every item; otherwise it rejects this item and accepts all earlier ones |
| Validation.WatchedCount | src/Store.ts:145-148 | the number of items watched before returning or throwing: all of them iff no item is rejected, and otherwise exactly the position of the first rejected item |
| Coalescer.Record | src/Store.ts:170-173 | a callback's keys take its values and the entry's other keys are kept; other consumers are untouched; a flush is queued iff the consumer was idle |
| Coalescer.Next | src/Store.ts:156-158 | the head task leaves the queue and reads its consumer's entry, which is absent exactly when the consumer has none; the entries are untouched |
| Coalescer.Clear | src/Store.ts:166 | `delete` removes exactly the consumer's entry and keeps the queue and every other entry |
| Coalescer.Flush | src/Store.ts:157-167 | on a consistent queue a completed flush reads its consumer's entry, leaves it unqueued with no entry, and keeps the queue consistent |
| Coalescer.RecordConsistent | src/Store.ts:155-173 | a callback queues a flush only for a consumer with no entry, so at most one flush per consumer stays queued and each finds its entry |
| Coalescer.TailConsistent | src/Store.ts:164-168 | once the head task leaves the queue, the queue stays consistent whether or not the entry is deleted, and the head consumer is queued no more |
| Coalescer.Merge | src/Store.ts:222-225 | the entry a burst builds: each key that any update wrote, with the value from the last update that wrote it |
| Coalescer.RecordValid | src/Store.ts:156-158 | one queued flush per pending consumer and none for an idle one stays true after a callback |
| Coalescer.FlushValid | src/Store.ts:164-168 | a flush receives its consumer's whole entry, leaves that consumer idle and unqueued, and keeps the one-flush-per-consumer invariant |
| Coalescer.BurstSchedulesOnce | src/Store.ts:208-225 | any non-empty burst of callbacks for an idle consumer queues exactly one flush, whose entry is the last-write-wins merge of the burst |
| ChannelFlush.ApplyBatch | src/Store.ts:256-268 | the Svelte flush succeeds iff every key addresses an existing writable; it then keeps the list lengths, the writable each encoder key addresses holds that key's value, and every writable whose slot no key encodes keeps its value |
| ChannelFlush.KeysLand | src/Store.ts:259-264 | after a batch is applied slot by slot, every encoder key of the batch finds its value in the writable it addresses |
| ChannelFlush.FlushEntries | src/Store.ts:257-266 | setting writables one entry at a time reports success iff every key resolves, and then ends where `ApplyBatch` ends |
| Store.UpdateOf | src/Store.ts:170-174 | every key a callback records carries the changed value; a React callback records no key, an Angular one exactly its field name, a Svelte one exactly the encoded slot key (`state<i>` or `selector<i>`) |
| Store.Fire | src/Store.ts:84-100 | after a change, every consumer of an active watch on the source is pending with the new value under that watch's key; consumers no such watch reaches are untouched; keys that no firing watch writes keep their values; nothing is lost; an unqueued pending consumer stays unqueued |
| Store.Notify | src/Store.ts:86-102 | a change runs the callbacks of the active watches on the source (as `Fire` states) and changes nothing but the pending entries and the queue |
| Store.FireStep | src/Store.ts:84-100 | one callback followed by the rest of the watches establishes everything `Fire` promises from that position on |
| Store.Install | src/Store.ts:150-153 | a registration appends one active watch per item; an Angular item assigns its field with the item's value and leaves every other field and instance alone; the other frameworks change no instance |
| Store.WatchAll | src/Store.ts:145-181 | a registration throws iff the guard rejects an item; it installs exactly as many watches as items accepted before the rejection, appended in order |
| Store.WatchStep | src/Store.ts:145-181 | an accepted first item followed by the rest of the loop gives the whole loop's contract |
| Store.AcceptedFirst | src/Store.ts:145-148 | after an accepted item, the rest of the items decide whether the loop throws, and one more item is watched |
| Store.Handles | src/Store.ts:85-103 | the handles a registration loop returns are the positions of the watches it appended, one per watched item |
| Store.RegisterReact | src/Store.ts:63-72 | the React registration throws iff an item is rejected; it appends, in order, one active watch on each item's source before the rejection, each marking the view; on completion the effect's cleanup holds exactly the new watches, and on a throw no cleanup is recorded; nothing else changes: not the pending entries, the queue, the instances, the writables or any stop list |
| Store.RegisterNg | src/Store.ts:139-242 | `useStateNg` throws iff a sub-state is unflagged, `useSelectorsNg` never throws; it appends, in order, one active watch per entry before the rejection, each assigning that entry's field; those entries' initial values are merged into the instance's fields, a later entry of one name winning; the stop list holds exactly the new watches, even on a throw; the destroy hook is wrapped iff the call completes; no other instance, no other consumer's stop list, the other kind's stop map and nothing else change |
| Store.RegisterNgBoth | src/Store.ts:128-136 | `useStateAndSelectorsNg` throws iff a sub-state is unflagged; on completion the sub-state stop list holds the first new watches and the selector stop list the ones after them, the watches are the sub-states' then the selectors', the fields take both maps, selectors last, and the hook is wrapped twice, selectors outermost; on a throw the sub-states before the rejection are watched and assigned, the selectors are skipped and the hook is not wrapped; nothing outside the instance, its two stop lists and the watches changes |
| Store.RegisterSvelte | src/Store.ts:244-288 | a Svelte registration replaces the id's writables of its kind with the items' values and keeps the other kind's; it appends one active watch per item on its source, the `j`th pushing into slot `j` of its kind, whose handles make up the new stop list, and adds one `onDestroy` callback; other ids' writables, stop lists and callbacks, and everything else, stay as they were |
| Store.RunNext | src/Store.ts:155-168 | running the oldest task pops the queue; it deletes the entry iff it completes; it throws iff the entry is missing (Angular, Svelte) or a Svelte key resolves to no writable; on a consistent queue only the Svelte case can throw; it keeps the queue consistent; it touches only the flushed instance's fields, the flushed id's writables and the flushed view's render count, and no stop list or cleanup |
| Store.Stop | src/Store.ts:70 | stopping handles deactivates exactly those watches and changes nothing else |
| Store.StoppedBy | src/Store.ts:237 | the handles a destroy hook stops are exactly those it calls |
| Store.Unmount | src/Store.ts:70 | unmounting a view stops exactly the watches its effect's cleanup holds, and nothing else changes |
| Store.Destroy | src/Store.ts:183-189 | `ngOnDestroy` stops exactly the handles its hook chain stops when called now (`HookSteps`), and nothing else changes |
| Store.CleanupHandles | src/Store.ts:285 | the handles Svelte's `onDestroy` callbacks stop are exactly those on the stop lists they read when called |
| Store.DestroyChannel | src/Store.ts:333 | destroying a Svelte id stops exactly the watches on the lists its callbacks read now, and nothing else changes |
| Store.Init | src/Store.ts:28-34 | a new Store has no watches, no pending entry, no queued flush, empty stop lists, cleanups and writables, no renders, and the given instances |
| StoreInvariants.EntryTransfer | src/Store.ts:261-263 | a Svelte entry whose keys resolve keeps resolving when the writable lists do not shrink |
| StoreInvariants.ChangeKeepsInv | src/Store.ts:252-276 | the callbacks of a change keep the whole-Store invariant |
| StoreInvariants.FlushViewOrComponentKeepsInv | src/Store.ts:90-93 | a React or Angular flush keeps the whole-Store invariant |
| StoreInvariants.FlushChannelKeepsInv | src/Store.ts:304-316 | a Svelte flush under the invariant completes and keeps the invariant |
| StoreInvariants.RunNextKeepsInv | src/Store.ts:209-219 | under the invariant the oldest task never throws, and the invariant survives it |
| StoreInvariants.StopKeepsInv | src/Store.ts:113 | stopping watches keeps the invariant |
| StoreInvariants.WatchAllKeepsInv | src/Store.ts:296-330 | installing watches that address existing writables keeps the invariant, whether or not a guard throws |
| StoreInvariants.ReplacedKeepsInv | src/Store.ts:245-249 | resetting an id's writables keeps the invariant when no active watch or pending key of the id addresses a dropped slot |
| StoreInvariants.RegisterReactKeepsInv | src/Store.ts:63-71 | `useStateAndSelectorsReact` keeps the invariant, whether or not it throws |
| StoreInvariants.RegisterNgKeepsInv | src/Store.ts:193-242 | `useStateNg` and `useSelectorsNg` keep the invariant, whether or not they throw |
| StoreInvariants.RegisterSvelteKeepsInv | src/Store.ts:244-288 | a Svelte registration keeps the invariant unless it cuts off a writable that a still-active watch or a pending key of the id addresses |
| StoreInvariants.StepKeepsInv | src/Store.ts:63-333 | every event that does not cut off an addressed Svelte writable keeps the invariant, and no task it runs throws |
| StoreInvariants.RunKeepsInv | src/Store.ts:155-173 | along every run in which no Svelte registration cuts off an addressed writable: at most one queued flush per consumer, each queued flush finds its entry, and no flush throws |
| StoreInvariants.InitInv | src/Store.ts:28-34 | a new Store satisfies the invariant |
| StoreProperties.FlushViewRendersOnce | src/Store.ts:88-96 | from any queue holding each consumer once and only pending ones: a React flush re-renders its view exactly once, renders no other view, and leaves the view idle and unqueued |
| StoreProperties.FlushComponentAssignsBatch | src/Store.ts:157-166 | from any queue holding each consumer once and only pending ones: an Angular flush assigns every pending field with its latest value, keeps the destroy hook, leaves the instance idle, keeps every other entry, and leaves every other instance, every writable and every render count alone |
| StoreProperties.FlushChannelSetsWritables | src/Store.ts:256-268 | from any queue holding each consumer once and only pending ones, when every key pending for the id addresses an existing writable: a Svelte flush sets each writable to the value pending for its slot, leaves the rest, leaves the id idle, and leaves other ids' writables, every instance and every render count alone |
| StoreProperties.MixedBurstQueuesOneFlush | src/Store.ts:204-229 | a sub-state change and a selector change of one idle Angular instance queue a single flush that carries both fields, the second with its latest value |
| StoreProperties.SilencedNotTargeted | src/Store.ts:70 | a change reaches no consumer whose watches are all stopped |
| StoreProperties.RunNextFrame | src/Store.ts:164-168 | a flush never creates a pending entry, and never queues or unqueues a consumer other than its own |
| StoreProperties.SilencedStep | src/Store.ts:185 | an idle consumer with every watch stopped stays idle and silenced across any event that does not register that same consumer |
| StoreProperties.WatchAllSilenced | src/Store.ts:80-104 | a registration loop whose routes all target another consumer leaves a silenced consumer silenced |
| StoreProperties.RegistrationSilenced | src/Store.ts:63-336 | a registration of another consumer leaves a silenced consumer silenced |
| StoreProperties.SilencedIdMayShrink | src/Store.ts:244-246 | once every watch of a Svelte id is stopped and nothing is pending for it, registering the id again with any number of items cuts off nothing that is addressed |
| StoreProperties.SilencedConsumerStaysIdle | src/Store.ts:333 | a consumer whose watches are all stopped and that is idle stays idle through any run that does not register it again, whatever other consumers register |
| StoreProperties.TeardownKeepsPendingFlushes | src/Store.ts:285 | unmount, `ngOnDestroy` and `onDestroy` leave every pending entry, every queued flush, the instances and the writables as they were |
| StoreProperties.FlushAfterDestroyStillAssigns | src/Store.ts:183-189 | from any queue holding each consumer once and only pending ones: an Angular flush queued before `ngOnDestroy` still assigns the destroyed instance's pending fields |
| StoreProperties.StopIdempotent | src/Store.ts:123 | calling the same stop handles twice equals calling them once |
| StoreProperties.TeardownIdempotent | src/Store.ts:235-241 | a second unmount or destroy of the same consumer changes nothing |
| StoreProperties.HookStepsFrame | src/Store.ts:184-189 | what a destroy hook does depends only on the stop lists it reads when called |
| StoreProperties.CleanupHandlesFrame | src/Store.ts:333 | what Svelte's destroy callbacks stop depends only on the stop lists they read when called |
| StoreProperties.RegisterNgWraps | src/Store.ts:183-189 | a completed Angular registration wraps the previous destroy hook and records one stop handle per entry |
| StoreProperties.NgDestroyOrder | src/Store.ts:134-135 | after a `useStateAndSelectorsNg` whose sub-states are all flagged, `ngOnDestroy` stops the selector watches, then the sub-state watches, then runs the hook the instance had before |
| StoreProperties.TwoStopsSteps | src/Store.ts:236-240 | a hook wrapped twice runs the outer stop loop, then the inner one, then the hook it wrapped |
| StoreProperties.NgOwnHookRunsLast | src/Store.ts:186-188 | after a `useStateAndSelectorsNg` whose sub-states are all flagged, the instance's own `ngOnDestroy` runs exactly once, after every stop handle |
| StoreProperties.UserHookLast | src/Store.ts:184-188 | behind two stop lists the instance's own hook is the last step, and every step before it is a stop |
| StoreProperties.RejectedReactRegistrationLeaks | src/Store.ts:80-83 | a React registration that meets a rejected item throws after watching the items before it, and those watches stay active after unmount |
| StoreProperties.WatchesStayActive | src/Store.ts:66-71 | when a view has no cleanup, unmounting it leaves the watches a registration appended for it active |
| StoreProperties.RejectedNgRegistrationIsNotWrapped | src/Store.ts:143-148 | an Angular sub-state registration that meets an unflagged item throws; its stop list holds the watches made so far, but `ngOnDestroy` is not wrapped |
| StoreProperties.RegisterNgKeepsCoalescer | src/Store.ts:197-201 | an Angular registration leaves the pending entries and the queue as they were |
| StoreProperties.RegisterSvelteKeepsCoalescer | src/Store.ts:292-296 | a Svelte registration leaves the pending entries and the queue as they were |
| StoreProperties.RegistrationKeepsCoalescer | src/Store.ts:107-126 | no registration event touches the pending entries or the queue |
| StoreProperties.OrphanStep | src/Store.ts:255-256 | a pending consumer with no queued flush stays so across any event |
| StoreProperties.OrphanedEntryIsPermanent | src/Store.ts:255-270 | once a consumer is pending with no queued flush, no run ever queues a flush for it again |
| StoreProperties.StepConsistent | src/Store.ts:155-173 | every event keeps at most one queued flush per consumer, each finding its entry; the only task that can throw is a Svelte flush |
| StoreProperties.RunConsistent | src/Store.ts:155-173 | along every run, with no condition on the registrations, at most one flush per consumer is queued and each finds its entry |
| StoreProperties.FireKeysCanonical | src/Store.ts:272-275 | a change records, for a Svelte id, only keys the slot encoder produces, so it keeps every pending Svelte key an encoder key |
| StoreProperties.StepKeysCanonical | src/Store.ts:272-275 | every event keeps every pending Svelte key an encoder key |
| StoreProperties.RunKeysCanonical | src/Store.ts:272-275 | along every run, with no condition on the registrations, every key pending for a Svelte id is `state<i>` or `selector<i>` as the encoder writes it |
| StoreProperties.RegisterSvelteStatesShape | src/Store.ts:244-283 | `useStateSvelte` replaces the id's writables with the items' values, appends one active watch per item, and queues nothing |
| StoreProperties.ShrinkingReRegistrationStallsChannel | src/Store.ts:244-246 | registering an id with two sub-states, then with one, then changing the dropped source leaves a flush that throws and an entry that stays pending with no flush queued |

## Left out

- The reactive engine (`reactive`, `computed`, `watch` with `deep: true`) is left out. A change of a watched sub-state or selector is the `Change(source, value)` event. Deep watching and equality of values are not modelled.
- React's `useState`/`useEffect`, Svelte's `writable`/`onDestroy` and Angular's component classes are left out. Each appears only through what the Store does with it: a render counter, a writable list, a destroy hook, a field map.
- Timers are left out. `setTimeout(…, 0)` becomes a FIFO queue of consumers, and the caller decides when the oldest task runs.
- The constructor and the getters (src/Store.ts:36-61) are left out. They only build the reactive state and selectors.
- `console.log` in the Angular flush (src/Store.ts:161, 213) is I/O with no effect on the Store.
- TypeScript's type-level machinery (`SubState`, `ComputedSelectors`, `ReactiveState`) is left out.
- A flush runs atomically. A change raised by a flush's own assignments, while that flush is still running, is not modelled. In the Angular and Svelte flushes, which delete after the loop, such a change would be lost.
- A Svelte flush that throws on one key may already have set the writables of earlier keys. The model reports the throw without those partial sets, because the order of `Object.entries` is not modelled.
- Within one change, callbacks run in registration order. The model follows that order, but the observable results above do not depend on it.
- Angular instances are numbered, and Svelte ids and field names are strings. React views are numbered, and their render counter stands in for `updateView({})`.
- SlotKeys.ParseInt: models `parseInt` only on strings without leading blanks, sign or a `0x`/`0X` prefix (JavaScript reads `0x1A` as 26 and `0x` as NaN), because keys reaching a flush come from the encoder.
- ChannelFlush.ApplyBatch: a key the encoder cannot produce (such as `state01`) is checked to resolve, but its value is dropped, while the source sets the writable it decodes to (src/Store.ts:261). Only callbacks write entries and they write encoder keys, on every run (`StoreProperties.RunKeysCanonical`). Which of two keys decoding to one slot would win depends on the order of `Object.entries`, which is not modelled.
- ChannelFlush.FlushEntries: requires every key in the entry to be one the encoder produced, because only callbacks write entries; `StoreProperties.RunKeysCanonical` shows that every pending key is of that form on every run.
- StoreInvariants.RunKeepsInv: requires that no Svelte registration cuts off a writable that a still-active watch or a pending key of its id addresses, because otherwise a later flush can throw (`StoreProperties.ShrinkingReRegistrationStallsChannel`). The queue facts alone need no condition (`StoreProperties.RunConsistent`).
- StoreInvariants.StepKeepsInv: requires the same condition for its single event, for the same reason.
- StoreInvariants.RegisterSvelteKeepsInv: requires the same condition for its single registration, for the same reason.
- Store.UpdateOf: sub-states are modelled by content. In the source a sub-state callback records the sub-state object itself (src/Store.ts:172, 274), the same object registration wrote (150, 249), so the recorded value is the live object; only selectors record a fresh `selector.value` (224, 322). `Change(source, v)` stands for the object after the mutation, and the model records `v` on every route.
- Store.DestroyChannel: `onDestroy` callbacks are kept per Svelte id rather than per component. Destroying runs every callback ever registered under the id, so when two components share an id the model also stops the other component's current lists.
- Store.HookSteps: the wrapper calls the replaced `ngOnDestroy` detached from the instance (src/Store.ts:187, 239), so a hook that reads `this` would throw. The model records only that the hook ran.

=== FILE: channel_flush.dfy ===
/**
 The body of a Svelte flush: every pending key is decoded and its value is
 set on the addressed state or selector writable. A key whose index is NaN
 or past the end of its list reaches `undefined.set(…)` and throws.
 */
module ChannelFlush {
  import opened Wrappers
  import opened SlotKeys

  /** The writable a slot addresses exists. */
  predicate InRange(slot: Slot, states: nat, selectors: nat) {
    match slot
    case StateSlot(i) => i < states
    case SelectorSlot(i) => i < selectors
  }

  /** Setting the value stored under this key does not throw. */
  predicate Resolves(key: string, states: nat, selectors: nat) {
    Decode(key).Some? && InRange(Decode(key).value, states, selectors)
  }

  /** A writable's value after the flush: the pending value for its key, else unchanged. */
  function SlotValue<V>(batch: map<string, V>, slot: Slot, current: V): V {
    if Encode(slot) in batch then batch[Encode(slot)] else current
  }

  /** The writable `slot` addresses exists and holds `v`. */
  ghost predicate Holds<V>(states: seq<V>, selectors: seq<V>, slot: Slot, v: V) {
    match slot
    case StateSlot(i) => i < |states| && states[i] == v
    case SelectorSlot(i) => i < |selectors| && selectors[i] == v
  }

  /**
   The flush as a whole: `None` when some key throws, otherwise the state
   and selector writables with every pending value set.
   */
  function ApplyBatch<V>(batch: map<string, V>, states: seq<V>, selectors: seq<V>): (r: Option<(seq<V>, seq<V>)>)
    ensures r.Some? <==> forall k :: k in batch ==> Resolves(k, |states|, |selectors|)
    ensures r.Some? ==> |r.value.0| == |states| && |r.value.1| == |selectors|
    ensures r.Some? ==> forall k :: k in batch && Canonical(k) ==> Holds(r.value.0, r.value.1, Decode(k).value, batch[k])
    ensures r.Some? ==> forall i :: 0 <= i < |states| && Encode(StateSlot(i)) !in batch ==> r.value.0[i] == states[i]
    ensures r.Some? ==> forall i :: 0 <= i < |selectors| && Encode(SelectorSlot(i)) !in batch ==> r.value.1[i] == selectors[i]
    ensures r.Some? ==> forall i :: 0 <= i < |states| ==>
      r.value.0[i] == SlotValue(batch, StateSlot(i), states[i])
    ensures r.Some? ==> forall i :: 0 <= i < |selectors| ==>
      r.value.1[i] == SlotValue(batch, SelectorSlot(i), selectors[i])
  {
    if forall k :: k in batch ==> Resolves(k, |states|, |selectors|) then
      var states' := seq(|states|, i requires 0 <= i < |states| => SlotValue(batch, StateSlot(i), states[i]));
      var selectors' := seq(|selectors|, i requires 0 <= i < |selectors| => SlotValue(batch, SelectorSlot(i), selectors[i]));
      KeysLand(batch, states, selectors, states', selectors');
      Some((states', selectors'))
    else None
  }

  /** Every key the encoder produced lands on the writable it decodes to. */
  lemma KeysLand<V>(batch: map<string, V>, states: seq<V>, selectors: seq<V>, states': seq<V>, selectors': seq<V>)
    requires forall k :: k in batch ==> Resolves(k, |states|, |selectors|)
    requires |states'| == |states| && |selectors'| == |selectors|
    requires forall i :: 0 <= i < |states| ==> states'[i] == SlotValue(batch, StateSlot(i), states[i])
    requires forall i :: 0 <= i < |selectors| ==> selectors'[i] == SlotValue(batch, SelectorSlot(i), selectors[i])
    ensures forall k :: k in batch && Canonical(k) ==> Holds(states', selectors', Decode(k).value, batch[k])
  {
    forall k | k in batch && Canonical(k)
      ensures Holds(states', selectors', Decode(k).value, batch[k])
    {
      var slot := Decode(k).value;
      assert Encode(slot) == k;
      assert InRange(slot, |states|, |selectors|);
    }
  }

  /** A writable's value once the keys in `done` have been applied. */
  function AppliedValue<V>(batch: map<string, V>, done: set<string>, slot: Slot, current: V): V {
    if Encode(slot) in batch && Encode(slot) in done then batch[Encode(slot)] else current
  }

  /** Applying one more key changes only the writable that key addresses. */
  lemma ApplyOneKey<V>(batch: map<string, V>, done: set<string>, key: string, slot: Slot)
    requires Encode(slot) == key && key in batch
    ensures forall other: Slot, current: V :: other != slot ==>
      AppliedValue(batch, done + {key}, other, current) == AppliedValue(batch, done, other, current)
    ensures forall current: V :: AppliedValue(batch, done + {key}, slot, current) == batch[key]
  {
    forall other: Slot | other != slot
      ensures Encode(other) != key
    {
      EncodeInjective(other, slot);
    }
  }

  /**
   The flush as the source performs it: one key at a time, decode it and
   set the addressed writable, stopping at the first key that throws. Keys
   reaching a flush are always ones the encoder produced.
   */
  method FlushEntries<V>(batch: map<string, V>, states: seq<V>, selectors: seq<V>)
    returns (ok: bool, states': seq<V>, selectors': seq<V>)
    requires forall k :: k in batch ==> Canonical(k)
    ensures ok <==> forall k :: k in batch ==> Resolves(k, |states|, |selectors|)
    ensures ok ==> ApplyBatch(batch, states, selectors) == Some((states', selectors'))
  {
    var todo := batch.Keys;
    var done: set<string> := {};
    states', selectors' := states, selectors;
    while todo != {}
      invariant todo + done == batch.Keys && todo !! done
      invariant |states'| == |states| && |selectors'| == |selectors|
      invariant forall k :: k in done ==> Resolves(k, |states|, |selectors|)
      invariant forall i :: 0 <= i < |states| ==> states'[i] == AppliedValue(batch, done, StateSlot(i), states[i])
      invariant forall i :: 0 <= i < |selectors| ==> selectors'[i] == AppliedValue(batch, done, SelectorSlot(i), selectors[i])
      decreases todo
    {
      var key :| key in todo;
      var slot := Decode(key).value;
      ApplyOneKey(batch, done, key, slot);
      match slot {
        case StateSlot(i) =>
          if i >= |states'| {
            return false, states', selectors';
          }
          states' := states'[i := batch[key]];
        case SelectorSlot(i) =>
          if i >= |selectors'| {
            return false, states', selectors';
          }
          selectors' := selectors'[i := batch[key]];
      }
      todo := todo - {key};
      done := done + {key};
    }
    ok := true;
    var expected := ApplyBatch(batch, states, selectors).value;
    assert states' == expected.0;
    assert selectors' == expected.1;
  }
}

=== FILE: coalescer.dfy ===
/**
 The per-consumer update coalescer that Store.ts repeats for React views,
 Angular component instances and Svelte ids. A watch callback records an
 update for its consumer and schedules one deferred flush if the consumer
 has no pending entry; the deferred flush reads the entry as it stands when
 it runs. The deferral `setTimeout(…, 0)` is an explicit FIFO queue of the
 consumers whose flush task is waiting.
 */
module Coalescer {
  import opened Wrappers

  datatype State<C, K, V> = State(pending: map<C, map<K, V>>, queue: seq<C>)

  /** The store before any watch has fired. */
  function Initial<C, K, V>(): (s: State<C, K, V>)
    ensures Valid(s)
  {
    State(map[], [])
  }

  predicate Distinct<C(==)>(q: seq<C>) {
    forall i, j :: 0 <= i < j < |q| ==> q[i] != q[j]
  }

  /**
   At most one flush task per consumer is queued, and a consumer has a
   pending entry exactly when its flush task is queued.
   */
  ghost predicate Valid<C, K, V>(s: State<C, K, V>) {
    && Distinct(s.queue)
    && (forall c :: c in s.pending ==> c in s.queue)
    && (forall c :: c in s.queue ==> c in s.pending)
  }

  /**
   What holds on every run, whether or not a flush throws: at most one flush
   task per consumer is queued, and a queued task finds its consumer's
   entry. A Svelte flush that throws leaves its entry pending with no task
   queued, which `Valid` rules out and this does not.
   */
  ghost predicate Consistent<C, K, V>(s: State<C, K, V>) {
    && Distinct(s.queue)
    && (forall c :: c in s.queue ==> c in s.pending)
  }

  /** The consumer's pending updates, empty when it is idle. */
  function EntryOf<C, K, V>(s: State<C, K, V>, c: C): map<K, V> {
    if c in s.pending then s.pending[c] else map[]
  }

  /**
   A watch callback for consumer `c`: schedule a flush when `c` has no
   pending entry, then merge `update` into its entry.
   */
  function Record<C, K, V>(s: State<C, K, V>, c: C, update: map<K, V>): (r: State<C, K, V>)
    ensures r.pending.Keys == s.pending.Keys + {c}
    ensures r.pending[c].Keys == EntryOf(s, c).Keys + update.Keys
    ensures forall k :: k in update ==> r.pending[c][k] == update[k]
    ensures forall k :: k in EntryOf(s, c) && k !in update ==> r.pending[c][k] == EntryOf(s, c)[k]
    ensures forall d :: d in s.pending && d != c ==> r.pending[d] == s.pending[d]
    ensures c in s.pending ==> r.queue == s.queue
    ensures c !in s.pending ==> r.queue == s.queue + [c]
  {
    var q := if c in s.pending then s.queue else s.queue + [c];
    State(s.pending[c := EntryOf(s, c) + update], q)
  }

  /**
   The flush task at the head of the queue starts: it leaves the queue and
   reads the consumer's entry as it is now (`None` when there is none).
   */
  function Next<C, K, V>(s: State<C, K, V>): (r: (C, Option<map<K, V>>, State<C, K, V>))
    requires s.queue != []
    ensures r.0 == s.queue[0]
    ensures r.0 in s.pending <==> r.1.Some?
    ensures r.1.Some? ==> r.1.value == s.pending[r.0]
    ensures r.2.pending == s.pending && r.2.queue == s.queue[1..]
  {
    var c := s.queue[0];
    (c, if c in s.pending then Some(s.pending[c]) else None, s.(queue := s.queue[1..]))
  }

  /** `map.delete(consumer)` at the end (Angular, Svelte) or start (React) of a flush. */
  function Clear<C, K, V>(s: State<C, K, V>, c: C): (r: State<C, K, V>)
    ensures r.pending.Keys == s.pending.Keys - {c}
    ensures forall d :: d in r.pending ==> r.pending[d] == s.pending[d]
    ensures r.queue == s.queue
  {
    s.(pending := s.pending - {c})
  }

  /** A flush that runs to completion: take the head task, read its entry, delete it. */
  function Flush<C, K, V>(s: State<C, K, V>): (r: (C, Option<map<K, V>>, State<C, K, V>))
    requires s.queue != []
    ensures Consistent(s) ==> r.1 == Some(s.pending[s.queue[0]])
    ensures Consistent(s) ==> Consistent(r.2) && r.0 !in r.2.pending && r.0 !in r.2.queue
  {
    TailConsistent(s);
    var (c, batch, s') := Next(s);
    (c, batch, Clear(s', c))
  }

  /**
   Once the head task leaves the queue, the rest stays consistent whether
   or not its entry is deleted, and the head consumer is queued no more.
   */
  lemma TailConsistent<C, K, V>(s: State<C, K, V>)
    requires s.queue != []
    ensures Consistent(s) ==>
      && s.queue[0] !in s.queue[1..]
      && Consistent(State(s.pending, s.queue[1..]))
      && Consistent(State(s.pending - {s.queue[0]}, s.queue[1..]))
  {
    if Consistent(s) {
      var c := s.queue[0];
      var q := s.queue[1..];
      forall i, j | 0 <= i < j < |q|
        ensures q[i] != q[j]
      {
        assert q[i] == s.queue[i + 1] && q[j] == s.queue[j + 1];
      }
      forall d | d in q
        ensures d != c && d in s.pending
      {
        var j :| 0 <= j < |q| && q[j] == d;
        assert s.queue[j + 1] == d;
      }
    }
  }

  /** A burst of callbacks for one consumer, in the order they fire. */
  function RecordAll<C, K, V>(s: State<C, K, V>, c: C, updates: seq<map<K, V>>): State<C, K, V> {
    if updates == [] then s
    else Record(RecordAll(s, c, updates[..|updates| - 1]), c, updates[|updates| - 1])
  }

  /** The updates of a burst merged with the later one winning on each key. */
  function Merge<K, V>(updates: seq<map<K, V>>): (m: map<K, V>)
    ensures forall k :: k in m ==> LastWith(updates, k) >= 0
    ensures forall i, k :: 0 <= i < |updates| && k in updates[i] ==> k in m
    ensures forall i, k :: 0 <= i < |updates| && k in updates[i] && LastWith(updates, k) == i ==> m[k] == updates[i][k]
  {
    if updates == [] then map[]
    else
      var init := updates[..|updates| - 1];
      var m := Merge(init) + updates[|updates| - 1];
      assert forall i :: 0 <= i < |init| ==> init[i] == updates[i];
      m
  }

  /** The position of the last update of the burst that writes key `k` (or -1). */
  function LastWith<K, V>(updates: seq<map<K, V>>, k: K): (i: int)
    ensures -1 <= i < |updates|
    ensures i >= 0 ==> k in updates[i]
    ensures forall j :: i < j < |updates| ==> k !in updates[j]
  {
    if updates == [] then -1
    else if k in updates[|updates| - 1] then |updates| - 1
    else LastWith(updates[..|updates| - 1], k)
  }

  /** Record keeps the queue consistent: a task is queued only for a consumer with no entry, hence none queued. */
  lemma RecordConsistent<C, K, V>(s: State<C, K, V>, c: C, update: map<K, V>)
    requires Consistent(s)
    ensures Consistent(Record(s, c, update))
  {
    var r := Record(s, c, update);
    if c !in s.pending {
      forall i, j | 0 <= i < j < |r.queue|
        ensures r.queue[i] != r.queue[j]
      {
        if j == |s.queue| {
          assert s.queue[i] in s.queue;
        } else {
          assert r.queue[i] == s.queue[i] && r.queue[j] == s.queue[j];
        }
      }
    }
  }

  /** Record preserves Valid: a flush is scheduled only for an idle consumer. */
  lemma RecordValid<C, K, V>(s: State<C, K, V>, c: C, update: map<K, V>)
    requires Valid(s)
    ensures Valid(Record(s, c, update))
  {
  }

  /** A completed flush returns its consumer to idle and keeps the others as they were. */
  lemma FlushValid<C, K, V>(s: State<C, K, V>)
    requires Valid(s) && s.queue != []
    ensures var (c, batch, r) := Flush(s);
      && Valid(r)
      && batch == Some(s.pending[c])
      && c !in r.pending && c !in r.queue
      && r.queue == s.queue[1..]
  {
    var c := s.queue[0];
    var r := Flush(s).2;
    forall d | d in r.queue
      ensures d in r.pending
    {
      var j :| 0 <= j < |r.queue| && r.queue[j] == d;
      assert s.queue[j + 1] == d;
    }
    forall d | d in s.pending && d != c
      ensures d in r.queue
    {
      var j :| 0 <= j < |s.queue| && s.queue[j] == d;
      assert j != 0;
      assert r.queue[j - 1] == d;
    }
  }

  /**
   A burst of n >= 1 callbacks for an idle consumer queues exactly one flush
   and leaves one entry carrying the last value written to each key.
   */
  lemma {:induction false} BurstSchedulesOnce<C, K, V>(s: State<C, K, V>, c: C, updates: seq<map<K, V>>)
    requires Valid(s) && c !in s.pending && updates != []
    ensures var r := RecordAll(s, c, updates);
      && Valid(r)
      && r.queue == s.queue + [c]
      && r.pending[c] == Merge(updates)
      && (forall d :: d in s.pending ==> d in r.pending && r.pending[d] == s.pending[d])
    decreases |updates|
  {
    var init := updates[..|updates| - 1];
    var last := updates[|updates| - 1];
    assert Merge(updates) == Merge(init) + last;
    if init == [] {
      RecordValid(s, c, last);
      assert RecordAll(s, c, updates) == Record(s, c, last);
      assert EntryOf(s, c) == map[];
    } else {
      BurstSchedulesOnce(s, c, init);
      var mid := RecordAll(s, c, init);
      RecordValid(mid, c, last);
      assert RecordAll(s, c, updates) == Record(mid, c, last);
      assert EntryOf(mid, c) == Merge(init);
    }
  }
}

=== FILE: slot_keys.dfy ===
/**
 The Svelte adapter keys its pending updates by strings: a sub-state at
 position i is recorded under `state${i}` and a selector at position i under
 `selector${i}`. The flush decodes a key with `startsWith('state')` and
 `parseInt(key.slice(5))`, or `parseInt(key.slice(8))` for anything else.
 */
module SlotKeys {
  import opened Wrappers

  /** Which writable a pending key addresses. */
  datatype Slot = StateSlot(index: nat) | SelectorSlot(index: nat)

  const StatePrefix: string := "state"
  const SelectorPrefix: string := "selector"

  predicate IsDigit(ch: char) {
    '0' <= ch <= '9'
  }

  predicate AllDigits(s: string) {
    forall i :: 0 <= i < |s| ==> IsDigit(s[i])
  }

  function DigitChar(d: nat): (ch: char)
    requires d < 10
    ensures IsDigit(ch)
  {
    ('0' as int + d) as char
  }

  function DigitValue(ch: char): (d: nat)
    requires IsDigit(ch)
    ensures d < 10
  {
    (ch as int - '0' as int) as nat
  }

  lemma DigitRoundTrip(d: nat)
    requires d < 10
    ensures DigitValue(DigitChar(d)) == d
  {
  }

  /** The decimal text a template literal produces for a non-negative integer. */
  function Decimal(n: nat): (s: string)
    ensures |s| > 0 && AllDigits(s)
  {
    if n < 10 then [DigitChar(n)] else Decimal(n / 10) + [DigitChar(n % 10)]
  }

  /** The number a string of decimal digits denotes. */
  function DigitsValue(s: string): nat
    requires AllDigits(s)
  {
    if s == [] then 0 else DigitsValue(s[..|s| - 1]) * 10 + DigitValue(s[|s| - 1])
  }

  /** The longest prefix of `s` made of decimal digits. */
  function LeadingDigits(s: string): (p: string)
    ensures p <= s
    ensures AllDigits(p)
    ensures |p| < |s| ==> !IsDigit(s[|p|])
  {
    if s == [] || !IsDigit(s[0]) then [] else [s[0]] + LeadingDigits(s[1..])
  }

  /**
   `parseInt` without a radix, on strings without leading blanks, sign or a
   `0x`/`0X` prefix (which makes `parseInt` read hexadecimal): the value of
   the leading digits, or `None` (NaN) when the string does not start with one.
   */
  function ParseInt(s: string): (r: Option<nat>)
    ensures r.None? <==> (s == [] || !IsDigit(s[0]))
  {
    var p := LeadingDigits(s);
    if p == [] then None else Some(DigitsValue(p))
  }

  /** `key.slice(n)`: the empty string when the key is shorter than n. */
  function Slice(s: string, n: nat): (r: string)
    ensures n <= |s| ==> s == s[..n] + r
    ensures n > |s| ==> r == []
  {
    if n <= |s| then s[n..] else []
  }

  /** The key under which the flush finds a slot's latest value. */
  function Encode(slot: Slot): (key: string)
    ensures Decode(key) == Some(slot)
  {
    DecodePrefixed(slot.index);
    match slot
    case StateSlot(i) => StatePrefix + Decimal(i)
    case SelectorSlot(i) => SelectorPrefix + Decimal(i)
  }

  /**
   The flush's reading of a key: a `state` prefix selects the state
   writables and `slice(5)`, every other key the selector writables and
   `slice(8)`; a NaN index is `None`.
   */
  function Decode(key: string): (r: Option<Slot>)
    ensures r.Some? ==> (r.value.StateSlot? <==> StatePrefix <= key)
  {
    if StatePrefix <= key then
      match ParseInt(Slice(key, 5))
      case None => None
      case Some(i) => Some(StateSlot(i))
    else
      match ParseInt(Slice(key, 8))
      case None => None
      case Some(i) => Some(SelectorSlot(i))
  }

  /** Decoding fails exactly when no digit follows the prefix the key is read with: `parseInt` gives NaN. */
  lemma DecodeNone(key: string)
    ensures Decode(key).None? <==>
      var rest := Slice(key, if StatePrefix <= key then |StatePrefix| else |SelectorPrefix|);
      rest == [] || !IsDigit(rest[0])
  {
  }

  /** A key the encoder could have produced. */
  predicate Canonical(key: string) {
    Decode(key).Some? && Encode(Decode(key).value) == key
  }

  lemma {:induction false} DecimalValue(n: nat)
    ensures DigitsValue(Decimal(n)) == n
    decreases n
  {
    var s := Decimal(n);
    if n < 10 {
      DigitRoundTrip(n);
    } else {
      DecimalValue(n / 10);
      DigitRoundTrip(n % 10);
      assert s[..|s| - 1] == Decimal(n / 10);
    }
  }

  lemma {:induction false} LeadingDigitsOfDigits(s: string)
    requires AllDigits(s)
    ensures LeadingDigits(s) == s
    decreases |s|
  {
    if s != [] {
      LeadingDigitsOfDigits(s[1..]);
    }
  }

  lemma ParseDecimal(n: nat)
    ensures ParseInt(Decimal(n)) == Some(n)
  {
    LeadingDigitsOfDigits(Decimal(n));
    DecimalValue(n);
  }

  /** `state${i}` decodes to state slot i and `selector${i}` to selector slot i. */
  lemma DecodePrefixed(i: nat)
    ensures Decode(StatePrefix + Decimal(i)) == Some(StateSlot(i))
    ensures Decode(SelectorPrefix + Decimal(i)) == Some(SelectorSlot(i))
  {
    ParseDecimal(i);
    var s := StatePrefix + Decimal(i);
    assert s[..5] == StatePrefix;
    assert Slice(s, 5) == Decimal(i);
    var k := SelectorPrefix + Decimal(i);
    assert k[1] == 'e';
    assert !(StatePrefix <= k);
    assert Slice(k, 8) == Decimal(i);
  }

  /** Decoding `state${i}` targets state writable i and `selector${i}` selector writable i. */
  lemma DecodeEncode(slot: Slot)
    ensures Decode(Encode(slot)) == Some(slot)
  {
    DecodePrefixed(slot.index);
  }

  /** Every key the encoder produces is canonical. */
  lemma EncodeCanonical(slot: Slot)
    ensures Canonical(Encode(slot))
  {
    DecodeEncode(slot);
  }

  /** Distinct slots never share a pending key. */
  lemma EncodeInjective(a: Slot, b: Slot)
    ensures Encode(a) == Encode(b) ==> a == b
  {
    DecodeEncode(a);
    DecodeEncode(b);
  }
}

=== FILE: store.dfy ===
/**
 The Store's consumer bookkeeping as a state machine. Each registration
 installs watches whose callbacks feed one coalescer; a change of a watched
 source fires the active watches on it; `RunNextTask` runs the oldest
 deferred flush; teardown stops watches. React views, Angular component
 instances and Svelte ids share one task queue and are told apart by the
 `Consumer` they are keyed by, as the three separate maps of the source are.
 */
module Store {
  import opened Wrappers
  import opened Validation
  import SlotKeys
  import Coalescer
  import ChannelFlush

  /** Whose pending map an update goes to: `viewToNeedsUpdateMap`, `componentInstanceToUpdatesMap` or `idToUpdatesMap`. */
  datatype Consumer = View(view: nat) | Component(instance: nat) | Channel(id: string)

  /** What a watch callback records when it fires. */
  datatype Route =
    | MarkView(view: nat)                          // `set(view, true)`
    | AssignField(instance: nat, field: string)    // `{...entry, [name]: value}`
    | PushSlot(id: string, slot: SlotKeys.Slot)    // `{...entry, [`state${i}`]: value}`

  /** One installed watch; its handle is its position in `World.watches`. */
  datatype Watch = Watch(source: nat, route: Route, active: bool)

  /** The two stop-handle maps: `stateStopWatches` and `selectorStopWatches`. */
  datatype ListKind = StateList | SelectorList

  /**
   An Angular `ngOnDestroy`: absent, the component's own, or a wrapper that
   stops the watches recorded for the instance and then calls what it wrapped.
   */
  datatype Hook = NoHook | UserHook | StopThen(list: ListKind, next: Hook)

  datatype Instance<V> = Instance(fields: map<string, V>, onDestroy: Hook)

  /** What running a destroy hook does, in order. */
  datatype HookStep = Stopped(handle: nat) | UserDestroyRan

  datatype World<V> = World(
    watches: seq<Watch>,
    coalescer: Coalescer.State<Consumer, string, V>,
    stateStops: map<Consumer, seq<nat>>,
    selectorStops: map<Consumer, seq<nat>>,
    viewCleanups: map<nat, seq<nat>>,        // the cleanup each React effect returned
    svelteCleanups: map<string, seq<ListKind>>,  // the `onDestroy` callbacks per Svelte id
    renders: map<nat, nat>,                  // `updateView({})` calls per view
    instances: map<nat, Instance<V>>,
    stateWritables: map<string, seq<V>>,
    selectorWritables: map<string, seq<V>>)

  datatype Outcome = Completed | InvalidSubState | TaskThrew | NoTask

  datatype Event<V> =
    | UseReact(view: nat, subStates: seq<Item<V>>, selectors: seq<Item<V>>)
    | UseStateNg(instance: nat, subStateMap: seq<(string, Item<V>)>)
    | UseSelectorsNg(instance: nat, selectorMap: seq<(string, Item<V>)>)
    | UseStateAndSelectorsNg(instance: nat, subStateMap: seq<(string, Item<V>)>, selectorMap: seq<(string, Item<V>)>)
    | UseStateSvelte(id: string, subStates: seq<Item<V>>)
    | UseSelectorsSvelte(id: string, selectors: seq<Item<V>>)
    | Change(source: nat, value: V)
    | RunNextTask
    | UnmountView(view: nat)
    | DestroyComponent(instance: nat)
    | DestroySvelte(id: string)

  /** A store with no watches yet, over Angular instances that already exist. */
  function Init<V>(instances: map<nat, Instance<V>>): (w: World<V>)
    ensures Coalescer.Valid(w.coalescer) && w.watches == []
    ensures w.coalescer.pending == map[] && w.coalescer.queue == []
    ensures forall c :: StopsOf(w, StateList, c) == [] && StopsOf(w, SelectorList, c) == []
    ensures forall id :: StatesOf(w, id) == [] && SelectorsOf(w, id) == [] && CleanupsOf(w, id) == []
    ensures forall view :: RendersOf(w, view) == 0 && view !in w.viewCleanups
    ensures forall inst :: inst in instances ==> InstanceOf(w, inst) == instances[inst]
  {
    World([], Coalescer.Initial(), map[], map[], map[], map[], map[], instances, map[], map[])
  }

  // ---- lookups that read `undefined` as empty ----

  function InstanceOf<V>(w: World<V>, inst: nat): Instance<V> {
    if inst in w.instances then w.instances[inst] else Instance(map[], NoHook)
  }

  function StatesOf<V>(w: World<V>, id: string): seq<V> {
    if id in w.stateWritables then w.stateWritables[id] else []
  }

  function SelectorsOf<V>(w: World<V>, id: string): seq<V> {
    if id in w.selectorWritables then w.selectorWritables[id] else []
  }

  function StopsOf<V>(w: World<V>, kind: ListKind, c: Consumer): seq<nat> {
    match kind
    case StateList => if c in w.stateStops then w.stateStops[c] else []
    case SelectorList => if c in w.selectorStops then w.selectorStops[c] else []
  }

  function CleanupsOf<V>(w: World<V>, id: string): seq<ListKind> {
    if id in w.svelteCleanups then w.svelteCleanups[id] else []
  }

  function RendersOf<V>(w: World<V>, view: nat): nat {
    if view in w.renders then w.renders[view] else 0
  }

  // ---- watch callbacks ----

  function Target(route: Route): Consumer {
    match route
    case MarkView(view) => View(view)
    case AssignField(inst, _) => Component(inst)
    case PushSlot(id, _) => Channel(id)
  }

  /** The key/value pair a callback merges into its consumer's entry (none for React). */
  function UpdateOf<V>(route: Route, v: V): (u: map<string, V>)
    ensures forall k :: k in u ==> u[k] == v
    ensures route.MarkView? ==> u.Keys == {}
    ensures route.AssignField? ==> u.Keys == {route.field}
    ensures route.PushSlot? ==> u.Keys == {SlotKeys.Encode(route.slot)}
  {
    match route
    case MarkView(_) => map[]
    case AssignField(_, field) => map[field := v]
    case PushSlot(_, slot) => map[SlotKeys.Encode(slot) := v]
  }

  predicate Fires(watch: Watch, source: nat) {
    watch.active && watch.source == source
  }

  /** Some watch from position `from` on fires for `source` and records into consumer `c`. */
  predicate Targeted(watches: seq<Watch>, source: nat, from: nat, c: Consumer)
    decreases |watches| - from
  {
    from < |watches| && ((Fires(watches[from], source) && Target(watches[from].route) == c) || Targeted(watches, source, from + 1, c))
  }

  /** No watch from position `from` on that fires for `source` writes key `k` of consumer `c`. */
  ghost predicate Unwritten<V>(watches: seq<Watch>, source: nat, v: V, from: nat, c: Consumer, k: string) {
    forall j :: from <= j < |watches| && Fires(watches[j], source) && Target(watches[j].route) == c ==>
      k !in UpdateOf(watches[j].route, v)
  }

  /**
   What the callbacks of the watches from position `from` on leave in the
   coalescer, `s` before and `r` after: every firing watch's consumer holds
   the new value under the watch's key, and keys no firing watch writes
   keep their values (`Kept`).
   */
  ghost predicate Fired<V>(s: Coalescer.State<Consumer, string, V>, watches: seq<Watch>, source: nat, v: V, from: nat,
                           r: Coalescer.State<Consumer, string, V>)
  {
    && (forall j :: from <= j < |watches| && Fires(watches[j], source) ==>
          && Target(watches[j].route) in r.pending
          && (forall k :: k in UpdateOf(watches[j].route, v) ==>
                k in r.pending[Target(watches[j].route)] && r.pending[Target(watches[j].route)][k] == v))
    && (forall c, k :: c in s.pending && k in s.pending[c] && s.pending[c][k] == v ==>
          c in r.pending && k in r.pending[c] && r.pending[c][k] == v)
    && Kept(s, watches, source, v, from, r)
  }

  /**
   A consumer no firing watch reaches keeps its entry or its absence; keys
   no firing watch writes keep their values; nothing pending is lost; every
   new consumer or key comes from a firing watch; nothing unqueued becomes
   queued.
   */
  ghost predicate Kept<V>(s: Coalescer.State<Consumer, string, V>, watches: seq<Watch>, source: nat, v: V, from: nat,
                          r: Coalescer.State<Consumer, string, V>)
  {
    && (forall c :: !Targeted(watches, source, from, c) ==>
          && (c in r.pending <==> c in s.pending)
          && (c in s.pending ==> r.pending[c] == s.pending[c]))
    && (forall c :: c in s.pending ==> c in r.pending)
    && (forall c, k :: c in s.pending && k in s.pending[c] ==> c in r.pending && k in r.pending[c])
    && (forall c, k :: c in s.pending && k in s.pending[c] && Unwritten(watches, source, v, from, c, k) ==>
          c in r.pending && k in r.pending[c] && r.pending[c][k] == s.pending[c][k])
    && (forall c :: c in r.pending ==> c in s.pending || Targeted(watches, source, from, c))
    && (forall c :: c in s.pending && c !in s.queue ==> c !in r.queue)
    && (forall c, k :: c in r.pending && k in r.pending[c] ==>
          (c in s.pending && k in s.pending[c]) || Targeted(watches, source, from, c))
  }

  /**
   The synchronous callbacks of every active watch on `source`, from
   position `from` on, in registration order.
   */
  function Fire<V>(s: Coalescer.State<Consumer, string, V>, watches: seq<Watch>, source: nat, v: V, from: nat)
    : (r: Coalescer.State<Consumer, string, V>)
    ensures Coalescer.Valid(s) ==> Coalescer.Valid(r)
    ensures Coalescer.Consistent(s) ==> Coalescer.Consistent(r)
    ensures Fired(s, watches, source, v, from, r)
    decreases |watches| - from
  {
    if from >= |watches| then s
    else
      var s1 := if Fires(watches[from], source)
        then Coalescer.Record(s, Target(watches[from].route), UpdateOf(watches[from].route, v))
        else s;
      assert Coalescer.Valid(s) ==> Coalescer.Valid(s1) by {
        if Coalescer.Valid(s) && Fires(watches[from], source) {
          Coalescer.RecordValid(s, Target(watches[from].route), UpdateOf(watches[from].route, v));
        }
      }
      assert Coalescer.Consistent(s) ==> Coalescer.Consistent(s1) by {
        if Coalescer.Consistent(s) && Fires(watches[from], source) {
          Coalescer.RecordConsistent(s, Target(watches[from].route), UpdateOf(watches[from].route, v));
        }
      }
      var r := Fire(s1, watches, source, v, from + 1);
      FireStep(s, s1, r, watches, source, v, from);
      r
  }

  /** The callback at position `from`, followed by the rest, establishes `Fired` from `from` on. */
  lemma FireStep<V>(s: Coalescer.State<Consumer, string, V>, s1: Coalescer.State<Consumer, string, V>,
                    r: Coalescer.State<Consumer, string, V>, watches: seq<Watch>, source: nat, v: V, from: nat)
    requires from < |watches|
    requires s1 == if Fires(watches[from], source)
      then Coalescer.Record(s, Target(watches[from].route), UpdateOf(watches[from].route, v))
      else s
    requires Fired(s1, watches, source, v, from + 1, r)
    ensures Fired(s, watches, source, v, from, r)
  {
    KeptStep(s, s1, r, watches, source, v, from);
    assert Fires(watches[from], source) ==>
      var c := Target(watches[from].route);
      && c in r.pending
      && forall k :: k in UpdateOf(watches[from].route, v) ==> s1.pending[c][k] == v && k in r.pending[c] && r.pending[c][k] == v;
  }

  /** The callback at position `from`, followed by the rest, establishes `Kept` from `from` on. */
  lemma KeptStep<V>(s: Coalescer.State<Consumer, string, V>, s1: Coalescer.State<Consumer, string, V>,
                    r: Coalescer.State<Consumer, string, V>, watches: seq<Watch>, source: nat, v: V, from: nat)
    requires from < |watches|
    requires s1 == if Fires(watches[from], source)
      then Coalescer.Record(s, Target(watches[from].route), UpdateOf(watches[from].route, v))
      else s
    requires Kept(s1, watches, source, v, from + 1, r)
    ensures Kept(s, watches, source, v, from, r)
  {
    forall c, k | c in s.pending && k in s.pending[c] && Unwritten(watches, source, v, from, c, k)
      ensures k in s1.pending[c] && s1.pending[c][k] == s.pending[c][k] && Unwritten(watches, source, v, from + 1, c, k)
    {
      if Fires(watches[from], source) && Target(watches[from].route) == c {
        assert k !in UpdateOf(watches[from].route, v);
      }
    }
  }

  /** A change of `source` to `v`: every active watch on it runs its callback synchronously. */
  function Notify<V>(w: World<V>, source: nat, v: V): (r: World<V>)
    ensures r.(coalescer := w.coalescer) == w
    ensures Coalescer.Valid(w.coalescer) ==> Coalescer.Valid(r.coalescer)
    ensures Coalescer.Consistent(w.coalescer) ==> Coalescer.Consistent(r.coalescer)
    ensures Fired(w.coalescer, w.watches, source, v, 0, r.coalescer)
  {
    w.(coalescer := Fire(w.coalescer, w.watches, source, v, 0))
  }

  // ---- registration ----

  datatype Registered<V> = Registered(world: World<V>, handles: seq<nat>, rejected: bool)

  /** The instance `inst` of a map of instances, an absent one read as a bare object. */
  function Lookup<V>(instances: map<nat, Instance<V>>, inst: nat): Instance<V> {
    if inst in instances then instances[inst] else Instance(map[], NoHook)
  }

  /** The instances after an item's initial write: Angular's `this[key] = initialValue`; React and Svelte write no instance. */
  function Assign<V>(instances: map<nat, Instance<V>>, route: Route, item: Item<V>): map<nat, Instance<V>> {
    match route
    case AssignField(inst, field) =>
      var i := Lookup(instances, inst);
      instances[inst := i.(fields := i.fields[field := item.value])]
    case _ => instances
  }

  /** The instances after the initial writes of `items` through `routes`, in order. */
  function AssignAll<V>(instances: map<nat, Instance<V>>, routes: seq<Route>, items: seq<Item<V>>): map<nat, Instance<V>>
    requires |routes| == |items|
    decreases |items|
  {
    if items == [] then instances else AssignAll(Assign(instances, routes[0], items[0]), routes[1..], items[1..])
  }

  /** The initial write an item's registration makes before its watch is installed. */
  function Install<V>(w: World<V>, route: Route, item: Item<V>): (r: World<V>)
    ensures r.watches == w.watches + [Watch(item.source, route, true)]
    ensures OnlyWatchesAndFields(w, r)
    ensures r.instances == Assign(w.instances, route, item)
    ensures !route.AssignField? ==> r.instances == w.instances
    ensures route.AssignField? ==>
      && InstanceOf(r, route.instance).fields == InstanceOf(w, route.instance).fields[route.field := item.value]
      && r.instances == w.instances[route.instance := InstanceOf(r, route.instance)]
  {
    var w1 := match route
      case AssignField(inst, field) =>
        var i := InstanceOf(w, inst);
        w.(instances := w.instances[inst := i.(fields := i.fields[field := item.value])])
      case _ => w;
    w1.(watches := w1.watches + [Watch(item.source, route, true)])
  }

  /** Everything but the watches and the instances' fields is left as it was. */
  ghost predicate OnlyWatchesAndFields<V>(w: World<V>, r: World<V>) {
    && r.coalescer == w.coalescer
    && r.stateStops == w.stateStops && r.selectorStops == w.selectorStops
    && r.viewCleanups == w.viewCleanups && r.svelteCleanups == w.svelteCleanups
    && r.renders == w.renders
    && r.stateWritables == w.stateWritables && r.selectorWritables == w.selectorWritables
    && r.instances.Keys >= w.instances.Keys
    && (forall inst :: InstanceOf(r, inst).onDestroy == InstanceOf(w, inst).onDestroy)
  }

  /**
   The registration `forEach`: guard each item, make its initial write and
   watch it, throwing at the first item the guard rejects. The handles are
   what the source pushes onto its stop list.
   */
  function WatchAll<V>(w: World<V>, g: Guard, routes: seq<Route>, items: seq<Item<V>>): (r: Registered<V>)
    requires |routes| == |items|
    ensures Watched(w, g, routes, items, r)
    decreases |items|
  {
    if items == [] then Registered(w, [], false)
    else if !Accepts(g, items[0]) then Registered(w, [], true)
    else
      var w1 := Install(w, routes[0], items[0]);
      var rest := WatchAll(w1, g, routes[1..], items[1..]);
      WatchStep(w, g, routes, items, w1, rest);
      Registered(rest.world, [|w.watches|] + rest.handles, rest.rejected)
  }

  /**
   What a registration loop leaves: it throws exactly when the guard rejects
   an item, it watches exactly the items before the first rejected one, in
   order, appending one watch per handle, it makes exactly their initial
   writes, and it changes nothing but the watches and the assigned fields.
   */
  ghost predicate Watched<V>(w: World<V>, g: Guard, routes: seq<Route>, items: seq<Item<V>>, r: Registered<V>)
    requires |routes| == |items|
  {
    && (r.rejected <==> FirstRejected(g, items).Some?)
    && |r.handles| == WatchedCount(g, items)
    && |r.world.watches| == |w.watches| + |r.handles|
    && r.world.watches[..|w.watches|] == w.watches
    && (forall j :: 0 <= j < |r.handles| ==>
          r.handles[j] == |w.watches| + j && r.world.watches[|w.watches| + j] == Watch(items[j].source, routes[j], true))
    && OnlyWatchesAndFields(w, r.world)
    && r.world.instances == AssignAll(w.instances, routes[..|r.handles|], items[..|r.handles|])
  }

  /** The contract of `WatchAll` for an accepted first item, from that of the rest. */
  lemma WatchStep<V>(w: World<V>, g: Guard, routes: seq<Route>, items: seq<Item<V>>, w1: World<V>, rest: Registered<V>)
    requires |routes| == |items| && items != [] && Accepts(g, items[0])
    requires w1 == Install(w, routes[0], items[0])
    requires Watched(w1, g, routes[1..], items[1..], rest)
    ensures Watched(w, g, routes, items, Registered(rest.world, [|w.watches|] + rest.handles, rest.rejected))
  {
    AcceptedFirst(g, items);
    WatchesAfter(w, w1, rest, routes, items);
    AssignedAfter(w.instances, routes, items, |rest.handles|);
  }

  /** Writing the first item, then the next `k`, is writing the first `k + 1`. */
  lemma AssignedAfter<V>(instances: map<nat, Instance<V>>, routes: seq<Route>, items: seq<Item<V>>, k: nat)
    requires |routes| == |items| && k < |items|
    ensures AssignAll(instances, routes[..k + 1], items[..k + 1])
      == AssignAll(Assign(instances, routes[0], items[0]), routes[1..][..k], items[1..][..k])
  {
    assert routes[..k + 1][1..] == routes[1..][..k];
    assert items[..k + 1][1..] == items[1..][..k];
  }

  /** Routes that assign no field leave the instances as they were. */
  lemma {:induction false} AssignNone<V>(instances: map<nat, Instance<V>>, routes: seq<Route>, items: seq<Item<V>>)
    requires |routes| == |items| && forall j :: 0 <= j < |routes| ==> !routes[j].AssignField?
    ensures AssignAll(instances, routes, items) == instances
    decreases |items|
  {
    if items != [] {
      AssignNone(instances, routes[1..], items[1..]);
    }
  }

  /** The fields an Angular registration assigns, a later entry of the same name overriding an earlier one. */
  function NgFields<V>(entries: seq<(string, Item<V>)>): map<string, V>
    decreases |entries|
  {
    if entries == [] then map[] else map[entries[0].0 := entries[0].1.value] + NgFields(entries[1..])
  }

  /**
   An Angular registration's initial writes merge the entries into the
   instance's fields and touch no other instance.
   */
  lemma {:induction false} AssignFields<V>(instances: map<nat, Instance<V>>, inst: nat, entries: seq<(string, Item<V>)>)
    ensures var a := AssignAll(instances, NgRoutes(inst, entries), NgItems(entries));
      && a - {inst} == instances - {inst}
      && (inst in a <==> inst in instances || entries != [])
      && Lookup(a, inst) == Lookup(instances, inst).(fields := Lookup(instances, inst).fields + NgFields(entries))
    decreases |entries|
  {
    if entries != [] {
      var i := Lookup(instances, inst);
      var next := Assign(instances, AssignField(inst, entries[0].0), entries[0].1);
      NgTail(inst, entries);
      AssignFields(next, inst, entries[1..]);
      MergeFirst(i.fields, entries[0].0, entries[0].1.value, NgFields(entries[1..]));
    }
  }

  /** The routes and items of all entries but the first are those of the rest. */
  lemma NgTail<V>(inst: nat, entries: seq<(string, Item<V>)>)
    requires entries != []
    ensures NgRoutes(inst, entries)[0] == AssignField(inst, entries[0].0) && NgItems(entries)[0] == entries[0].1
    ensures NgRoutes(inst, entries)[1..] == NgRoutes(inst, entries[1..])
    ensures NgItems(entries)[1..] == NgItems(entries[1..])
  {
  }

  /** Assigning one key and then merging the rest is merging the key's singleton and the rest. */
  lemma MergeFirst<K, U>(m: map<K, U>, k: K, u: U, rest: map<K, U>)
    ensures m[k := u] + rest == m + (map[k := u] + rest)
  {
  }

  /** The handles a registration loop returns are the positions of the watches it appended. */
  lemma Handles<V>(w: World<V>, g: Guard, routes: seq<Route>, items: seq<Item<V>>, r: Registered<V>)
    requires |routes| == |items| && Watched(w, g, routes, items, r)
    ensures r.handles == seq(WatchedCount(g, items), j => |w.watches| + j)
    ensures var n := WatchedCount(g, items);
      r.world.watches == w.watches + seq(n, j requires 0 <= j < n => Watch(items[j].source, routes[j], true))
  {
    var n := WatchedCount(g, items);
    var added := seq(n, j requires 0 <= j < n => Watch(items[j].source, routes[j], true));
    assert forall j :: 0 <= j < n ==> r.world.watches[|w.watches| + j] == added[j];
    assert r.world.watches == r.world.watches[..|w.watches|] + r.world.watches[|w.watches|..];
  }

  /** An accepted first item is watched, and the rest decides whether the registration throws. */
  lemma AcceptedFirst<V>(g: Guard, items: seq<Item<V>>)
    requires items != [] && Accepts(g, items[0])
    ensures FirstRejected(g, items).Some? <==> FirstRejected(g, items[1..]).Some?
    ensures WatchedCount(g, items) == 1 + WatchedCount(g, items[1..])
  {
  }

  /** The contract of `WatchAll` for one more installed item, from that of the rest. */
  lemma WatchesAfter<V>(w: World<V>, w1: World<V>, rest: Registered<V>, routes: seq<Route>, items: seq<Item<V>>)
    requires |routes| == |items| && items != []
    requires w1.watches == w.watches + [Watch(items[0].source, routes[0], true)]
    requires OnlyWatchesAndFields(w, w1)
    requires |rest.handles| < |items|
    requires |rest.world.watches| == |w1.watches| + |rest.handles|
    requires rest.world.watches[..|w1.watches|] == w1.watches
    requires forall j :: 0 <= j < |rest.handles| ==>
      rest.handles[j] == |w1.watches| + j && rest.world.watches[|w1.watches| + j] == Watch(items[1..][j].source, routes[1..][j], true)
    requires OnlyWatchesAndFields(w1, rest.world)
    ensures var hs := [|w.watches|] + rest.handles;
      && |rest.world.watches| == |w.watches| + |hs|
      && rest.world.watches[..|w.watches|] == w.watches
      && (forall j :: 0 <= j < |hs| ==>
            hs[j] == |w.watches| + j && rest.world.watches[|w.watches| + j] == Watch(items[j].source, routes[j], true))
      && OnlyWatchesAndFields(w, rest.world)
  {
    assert rest.world.watches[|w.watches|] == w1.watches[|w.watches|];
    assert rest.world.watches[..|w.watches|] == w1.watches[..|w.watches|];
  }

  function ReactRoutes(view: nat, n: nat): (rs: seq<Route>)
    ensures |rs| == n
  {
    seq(n, _ => MarkView(view))
  }

  function NgRoutes<V>(inst: nat, entries: seq<(string, Item<V>)>): (rs: seq<Route>)
    ensures |rs| == |entries|
  {
    seq(|entries|, i requires 0 <= i < |entries| => AssignField(inst, entries[i].0))
  }

  function NgItems<V>(entries: seq<(string, Item<V>)>): (items: seq<Item<V>>)
    ensures |items| == |entries|
  {
    seq(|entries|, i requires 0 <= i < |entries| => entries[i].1)
  }

  function SvelteRoutes(id: string, kind: ListKind, n: nat): (rs: seq<Route>)
    ensures |rs| == n
  {
    seq(n, i requires 0 <= i < n => PushSlot(id, if kind == StateList then SlotKeys.StateSlot(i) else SlotKeys.SelectorSlot(i)))
  }

  /**
   `useStateAndSelectorsReact` (`useStateReact` and `useSelectorsReact` pass
   one empty list): watch sub-states then selectors under the React guard;
   the effect's cleanup exists only if both loops finish.
   */
  function RegisterReact<V>(w: World<V>, view: nat, subStates: seq<Item<V>>, selectors: seq<Item<V>>): (r: (World<V>, Outcome))
    ensures r.1 == Completed || r.1 == InvalidSubState
    ensures r.1 == InvalidSubState <==> FirstRejected(SubStateOrComputed, subStates + selectors).Some?
    ensures |r.0.watches| == |w.watches| + WatchedCount(SubStateOrComputed, subStates + selectors)
    ensures r.0.coalescer == w.coalescer
    ensures r.1 == InvalidSubState ==> r.0.viewCleanups == w.viewCleanups
    ensures r.1 == Completed ==>
      r.0.viewCleanups == w.viewCleanups[view := seq(|subStates| + |selectors|, j => |w.watches| + j)]
    ensures var items := subStates + selectors; var n := WatchedCount(SubStateOrComputed, items);
      r.0.watches == w.watches + seq(n, j requires 0 <= j < n => Watch(items[j].source, MarkView(view), true))
    ensures r.0.(watches := w.watches, viewCleanups := w.viewCleanups) == w
  {
    var items := subStates + selectors;
    var r := WatchAll(w, SubStateOrComputed, ReactRoutes(view, |items|), items);
    ReactWatched(w, view, items, r);
    if r.rejected then (r.world, InvalidSubState)
    else (r.world.(viewCleanups := r.world.viewCleanups[view := r.handles]), Completed)
  }

  /** A React registration loop appends a view watch per watched item and changes nothing else. */
  lemma ReactWatched<V>(w: World<V>, view: nat, items: seq<Item<V>>, r: Registered<V>)
    requires Watched(w, SubStateOrComputed, ReactRoutes(view, |items|), items, r)
    ensures r.handles == seq(WatchedCount(SubStateOrComputed, items), j => |w.watches| + j)
    ensures var n := WatchedCount(SubStateOrComputed, items);
      r.world.watches == w.watches + seq(n, j requires 0 <= j < n => Watch(items[j].source, MarkView(view), true))
    ensures r.world.(watches := w.watches) == w
  {
    var routes := ReactRoutes(view, |items|);
    Handles(w, SubStateOrComputed, routes, items, r);
    AssignNone(w.instances, routes[..|r.handles|], items[..|r.handles|]);
    var n := |r.handles|;
    assert seq(n, j requires 0 <= j < n => Watch(items[j].source, routes[j], true))
      == seq(n, j requires 0 <= j < n => Watch(items[j].source, MarkView(view), true));
  }

  /** Record `hs` as `c`'s `kind` stop list: `stateStopWatches.set(…)` or `selectorStopWatches.set(…)`. */
  function RecordStops<V>(w: World<V>, kind: ListKind, c: Consumer, hs: seq<nat>): (r: World<V>)
    ensures StopsOf(r, kind, c) == hs
    ensures kind == StateList ==> r.stateStops == w.stateStops[c := hs] && r.selectorStops == w.selectorStops
    ensures kind == SelectorList ==> r.selectorStops == w.selectorStops[c := hs] && r.stateStops == w.stateStops
    ensures r.(stateStops := w.stateStops, selectorStops := w.selectorStops) == w
  {
    match kind
    case StateList => w.(stateStops := w.stateStops[c := hs])
    case SelectorList => w.(selectorStops := w.selectorStops[c := hs])
  }

  /** Replace the instance's `ngOnDestroy` by one that stops `kind`'s watches first. */
  function WrapDestroy<V>(w: World<V>, inst: nat, kind: ListKind): (r: World<V>)
    ensures InstanceOf(r, inst) == InstanceOf(w, inst).(onDestroy := StopThen(kind, InstanceOf(w, inst).onDestroy))
    ensures r.instances - {inst} == w.instances - {inst}
    ensures r.(instances := w.instances) == w
  {
    var i := InstanceOf(w, inst);
    w.(instances := w.instances[inst := i.(onDestroy := StopThen(kind, i.onDestroy))])
  }

  /** The watches an Angular registration appends for `entries`, one per entry, in order. */
  function NgWatches<V>(inst: nat, entries: seq<(string, Item<V>)>): (ws: seq<Watch>)
    ensures |ws| == |entries|
  {
    seq(|entries|, j requires 0 <= j < |entries| => Watch(entries[j].1.source, AssignField(inst, entries[j].0), true))
  }

  /**
   An Angular registration loop appends a field watch per watched entry,
   assigns the watched entries' initial values, and changes nothing else.
   */
  lemma NgWatched<V>(w: World<V>, g: Guard, inst: nat, entries: seq<(string, Item<V>)>, r: Registered<V>)
    requires Watched(w, g, NgRoutes(inst, entries), NgItems(entries), r)
    ensures r.handles == seq(WatchedCount(g, NgItems(entries)), j => |w.watches| + j)
    ensures var n := WatchedCount(g, NgItems(entries));
      && r.world.watches == w.watches + NgWatches(inst, entries[..n])
      && InstanceOf(r.world, inst) == InstanceOf(w, inst).(fields := InstanceOf(w, inst).fields + NgFields(entries[..n]))
    ensures r.world.instances - {inst} == w.instances - {inst}
    ensures r.world.(watches := w.watches, instances := w.instances) == w
  {
    var routes := NgRoutes(inst, entries);
    var items := NgItems(entries);
    Handles(w, g, routes, items, r);
    var n := |r.handles|;
    assert seq(n, j requires 0 <= j < n => Watch(items[j].source, routes[j], true)) == NgWatches(inst, entries[..n]);
    assert routes[..n] == NgRoutes(inst, entries[..n]);
    assert items[..n] == NgItems(entries[..n]);
    AssignFields(w.instances, inst, entries[..n]);
  }

  /** `useStateNg` and `useSelectorsNg`: the stop list holds what was watched, even on a throw. */
  function RegisterNg<V>(w: World<V>, inst: nat, kind: ListKind, entries: seq<(string, Item<V>)>): (r: (World<V>, Outcome))
    ensures r.1 == Completed || r.1 == InvalidSubState
    ensures r.1 == InvalidSubState <==> kind == StateList && FirstRejected(SubStateOnly, NgItems(entries)).Some?
    ensures r.0.coalescer == w.coalescer
    ensures var n := WatchedCount(if kind == StateList then SubStateOnly else Unchecked, NgItems(entries));
      && StopsOf(r.0, kind, Component(inst)) == seq(n, j => |w.watches| + j)
      && r.0.watches == w.watches + NgWatches(inst, entries[..n])
      && InstanceOf(r.0, inst).fields == InstanceOf(w, inst).fields + NgFields(entries[..n])
    ensures InstanceOf(r.0, inst).onDestroy ==
      if r.1 == Completed then StopThen(kind, InstanceOf(w, inst).onDestroy) else InstanceOf(w, inst).onDestroy
    ensures r.0.instances - {inst} == w.instances - {inst}
    ensures kind == StateList ==>
      r.0.stateStops == w.stateStops[Component(inst) := StopsOf(r.0, kind, Component(inst))] && r.0.selectorStops == w.selectorStops
    ensures kind == SelectorList ==>
      r.0.selectorStops == w.selectorStops[Component(inst) := StopsOf(r.0, kind, Component(inst))] && r.0.stateStops == w.stateStops
    ensures r.0.(watches := w.watches, instances := w.instances, stateStops := w.stateStops, selectorStops := w.selectorStops) == w
  {
    var g := if kind == StateList then SubStateOnly else Unchecked;
    var r := WatchAll(w, g, NgRoutes(inst, entries), NgItems(entries));
    NgWatched(w, g, inst, entries, r);
    var w1 := RecordStops(r.world, kind, Component(inst), r.handles);
    if r.rejected then (w1, InvalidSubState) else (WrapDestroy(w1, inst, kind), Completed)
  }

  /** `useStateAndSelectorsNg`: states first; a throw there skips the selectors. */
  function RegisterNgBoth<V>(w: World<V>, inst: nat, subStateMap: seq<(string, Item<V>)>, selectorMap: seq<(string, Item<V>)>)
    : (r: (World<V>, Outcome))
    ensures r.1 == Completed || r.1 == InvalidSubState
    ensures r.1 == InvalidSubState <==> FirstRejected(SubStateOnly, NgItems(subStateMap)).Some?
    ensures r.0.coalescer == w.coalescer
    ensures r.1 == Completed ==>
      InstanceOf(r.0, inst).onDestroy == StopThen(SelectorList, StopThen(StateList, InstanceOf(w, inst).onDestroy))
    ensures r.1 == InvalidSubState ==>
      && InstanceOf(r.0, inst).onDestroy == InstanceOf(w, inst).onDestroy
      && StopsOf(r.0, SelectorList, Component(inst)) == StopsOf(w, SelectorList, Component(inst))
    ensures r.1 == Completed ==>
      var n, m := |subStateMap|, |selectorMap|;
      && StopsOf(r.0, StateList, Component(inst)) == seq(n, j => |w.watches| + j)
      && StopsOf(r.0, SelectorList, Component(inst)) == seq(m, j => |w.watches| + n + j)
      && r.0.watches == w.watches + NgWatches(inst, subStateMap) + NgWatches(inst, selectorMap)
      && InstanceOf(r.0, inst).fields == InstanceOf(w, inst).fields + NgFields(subStateMap) + NgFields(selectorMap)
    ensures r.1 == InvalidSubState ==>
      var n := WatchedCount(SubStateOnly, NgItems(subStateMap));
      && StopsOf(r.0, StateList, Component(inst)) == seq(n, j => |w.watches| + j)
      && r.0.watches == w.watches + NgWatches(inst, subStateMap[..n])
      && InstanceOf(r.0, inst).fields == InstanceOf(w, inst).fields + NgFields(subStateMap[..n])
    ensures r.0.instances - {inst} == w.instances - {inst}
    ensures r.0.stateStops - {Component(inst)} == w.stateStops - {Component(inst)}
    ensures r.0.selectorStops - {Component(inst)} == w.selectorStops - {Component(inst)}
    ensures r.0.(watches := w.watches, instances := w.instances, stateStops := w.stateStops, selectorStops := w.selectorStops) == w
  {
    var (w1, o) := RegisterNg(w, inst, StateList, subStateMap);
    UpdateOutside(w.stateStops, Component(inst), StopsOf(w1, StateList, Component(inst)));
    if o == InvalidSubState then (w1, o)
    else
      var r := RegisterNg(w1, inst, SelectorList, selectorMap);
      NgBothCompleted(w, inst, subStateMap, selectorMap, w1, r.0);
      r
  }

  /** Both Angular loops finished: the selectors' watches, handles and fields follow the sub-states'. */
  lemma NgBothCompleted<V>(w: World<V>, inst: nat, subStateMap: seq<(string, Item<V>)>, selectorMap: seq<(string, Item<V>)>,
                           w1: World<V>, r: World<V>)
    requires FirstRejected(SubStateOnly, NgItems(subStateMap)).None?
    requires var n := WatchedCount(SubStateOnly, NgItems(subStateMap));
      && StopsOf(w1, StateList, Component(inst)) == seq(n, j => |w.watches| + j)
      && w1.watches == w.watches + NgWatches(inst, subStateMap[..n])
      && InstanceOf(w1, inst).fields == InstanceOf(w, inst).fields + NgFields(subStateMap[..n])
    requires InstanceOf(w1, inst).onDestroy == StopThen(StateList, InstanceOf(w, inst).onDestroy)
    requires w1.instances - {inst} == w.instances - {inst}
    requires w1.stateStops == w.stateStops[Component(inst) := StopsOf(w1, StateList, Component(inst))]
    requires w1.selectorStops == w.selectorStops
    requires w1.(watches := w.watches, instances := w.instances, stateStops := w.stateStops, selectorStops := w.selectorStops) == w
    requires var m := WatchedCount(Unchecked, NgItems(selectorMap));
      && StopsOf(r, SelectorList, Component(inst)) == seq(m, j => |w1.watches| + j)
      && r.watches == w1.watches + NgWatches(inst, selectorMap[..m])
      && InstanceOf(r, inst).fields == InstanceOf(w1, inst).fields + NgFields(selectorMap[..m])
    requires InstanceOf(r, inst).onDestroy == StopThen(SelectorList, InstanceOf(w1, inst).onDestroy)
    requires r.instances - {inst} == w1.instances - {inst}
    requires r.selectorStops == w1.selectorStops[Component(inst) := StopsOf(r, SelectorList, Component(inst))]
    requires r.stateStops == w1.stateStops
    requires r.(watches := w1.watches, instances := w1.instances, stateStops := w1.stateStops, selectorStops := w1.selectorStops) == w1
    ensures var n, m := |subStateMap|, |selectorMap|;
      && StopsOf(r, StateList, Component(inst)) == seq(n, j => |w.watches| + j)
      && StopsOf(r, SelectorList, Component(inst)) == seq(m, j => |w.watches| + n + j)
      && r.watches == w.watches + NgWatches(inst, subStateMap) + NgWatches(inst, selectorMap)
      && InstanceOf(r, inst).fields == InstanceOf(w, inst).fields + NgFields(subStateMap) + NgFields(selectorMap)
      && InstanceOf(r, inst).onDestroy == StopThen(SelectorList, StopThen(StateList, InstanceOf(w, inst).onDestroy))
    ensures r.instances - {inst} == w.instances - {inst}
    ensures r.stateStops - {Component(inst)} == w.stateStops - {Component(inst)}
    ensures r.selectorStops - {Component(inst)} == w.selectorStops - {Component(inst)}
    ensures r.(watches := w.watches, instances := w.instances, stateStops := w.stateStops, selectorStops := w.selectorStops) == w
  {
    WholeLoop(SubStateOnly, subStateMap);
    assert FirstRejected(Unchecked, NgItems(selectorMap)).None?;
    WholeLoop(Unchecked, selectorMap);
    NgBothShape(w, inst, subStateMap, selectorMap, w1, r);
    NgBothFrame(w, inst, w1, r);
  }

  /** An Angular loop the guard never rejects watches every entry. */
  lemma WholeLoop<V>(g: Guard, entries: seq<(string, Item<V>)>)
    requires FirstRejected(g, NgItems(entries)).None?
    ensures WatchedCount(g, NgItems(entries)) == |entries| && entries[..|entries|] == entries
  {
  }

  /** The handles, watches and fields of two whole Angular loops, the second after the first. */
  lemma NgBothShape<V>(w: World<V>, inst: nat, subStateMap: seq<(string, Item<V>)>, selectorMap: seq<(string, Item<V>)>,
                       w1: World<V>, r: World<V>)
    requires StopsOf(w1, StateList, Component(inst)) == seq(|subStateMap|, j => |w.watches| + j)
    requires w1.watches == w.watches + NgWatches(inst, subStateMap)
    requires InstanceOf(w1, inst).fields == InstanceOf(w, inst).fields + NgFields(subStateMap)
    requires InstanceOf(w1, inst).onDestroy == StopThen(StateList, InstanceOf(w, inst).onDestroy)
    requires StopsOf(r, SelectorList, Component(inst)) == seq(|selectorMap|, j => |w1.watches| + j)
    requires r.watches == w1.watches + NgWatches(inst, selectorMap)
    requires InstanceOf(r, inst).fields == InstanceOf(w1, inst).fields + NgFields(selectorMap)
    requires InstanceOf(r, inst).onDestroy == StopThen(SelectorList, InstanceOf(w1, inst).onDestroy)
    requires r.stateStops == w1.stateStops
    ensures var n, m := |subStateMap|, |selectorMap|;
      && StopsOf(r, StateList, Component(inst)) == seq(n, j => |w.watches| + j)
      && StopsOf(r, SelectorList, Component(inst)) == seq(m, j => |w.watches| + n + j)
      && r.watches == w.watches + NgWatches(inst, subStateMap) + NgWatches(inst, selectorMap)
      && InstanceOf(r, inst).fields == InstanceOf(w, inst).fields + NgFields(subStateMap) + NgFields(selectorMap)
      && InstanceOf(r, inst).onDestroy == StopThen(SelectorList, StopThen(StateList, InstanceOf(w, inst).onDestroy))
  {
  }

  /** Two Angular loops on one instance change nothing outside it but the watches. */
  lemma NgBothFrame<V>(w: World<V>, inst: nat, w1: World<V>, r: World<V>)
    requires w1.instances - {inst} == w.instances - {inst}
    requires w1.stateStops == w.stateStops[Component(inst) := StopsOf(w1, StateList, Component(inst))]
    requires w1.selectorStops == w.selectorStops
    requires w1.(watches := w.watches, instances := w.instances, stateStops := w.stateStops, selectorStops := w.selectorStops) == w
    requires r.instances - {inst} == w1.instances - {inst}
    requires r.selectorStops == w1.selectorStops[Component(inst) := StopsOf(r, SelectorList, Component(inst))]
    requires r.stateStops == w1.stateStops
    requires r.(watches := w1.watches, instances := w1.instances, stateStops := w1.stateStops, selectorStops := w1.selectorStops) == w1
    ensures r.instances - {inst} == w.instances - {inst}
    ensures r.stateStops - {Component(inst)} == w.stateStops - {Component(inst)}
    ensures r.selectorStops - {Component(inst)} == w.selectorStops - {Component(inst)}
    ensures r.(watches := w.watches, instances := w.instances, stateStops := w.stateStops, selectorStops := w.selectorStops) == w
  {
    UpdateOutside(w1.selectorStops, Component(inst), StopsOf(r, SelectorList, Component(inst)));
    UpdateOutside(w.stateStops, Component(inst), StopsOf(w1, StateList, Component(inst)));
  }

  /** Setting one key of a map leaves the map outside that key as it was. */
  lemma UpdateOutside<K, U>(m: map<K, U>, k: K, u: U)
    ensures m[k := u] - {k} == m - {k}
  {
  }

  /** The `kind` writables of `id` replaced by `initial`: `stateWritables.set(id, [])` and the pushes. */
  function Replaced<V>(w: World<V>, id: string, kind: ListKind, initial: seq<V>): World<V> {
    match kind
    case StateList => w.(stateWritables := w.stateWritables[id := initial])
    case SelectorList => w.(selectorWritables := w.selectorWritables[id := initial])
  }

  /** The watches a Svelte registration appends for `items`: the `j`th pushes into slot `j` of the `kind` list. */
  function SvelteWatches<V>(id: string, kind: ListKind, items: seq<Item<V>>): (ws: seq<Watch>)
    ensures |ws| == |items|
  {
    seq(|items|, j requires 0 <= j < |items| =>
      Watch(items[j].source, PushSlot(id, if kind == StateList then SlotKeys.StateSlot(j) else SlotKeys.SelectorSlot(j)), true))
  }

  /** A Svelte registration loop watches every item and changes nothing but the watches. */
  lemma SvelteWatched<V>(w: World<V>, id: string, kind: ListKind, items: seq<Item<V>>, r: Registered<V>)
    requires Watched(w, Unchecked, SvelteRoutes(id, kind, |items|), items, r)
    ensures r.handles == seq(|items|, j => |w.watches| + j)
    ensures r.world.watches == w.watches + SvelteWatches(id, kind, items)
    ensures r.world.(watches := w.watches) == w
  {
    var routes := SvelteRoutes(id, kind, |items|);
    assert FirstRejected(Unchecked, items).None?;
    Handles(w, Unchecked, routes, items, r);
    AssignNone(w.instances, routes[..|r.handles|], items[..|r.handles|]);
    var n := |r.handles|;
    assert seq(n, j requires 0 <= j < n => Watch(items[j].source, routes[j], true)) == SvelteWatches(id, kind, items);
  }

  /**
   `useStateSvelte` and `useSelectorsSvelte`: a fresh writable per item
   (the returned list), one watch per item, and an `onDestroy` callback.
   */
  function RegisterSvelte<V>(w: World<V>, id: string, kind: ListKind, items: seq<Item<V>>): (r: World<V>)
    ensures r.coalescer == w.coalescer
    ensures |r.watches| == |w.watches| + |items| && r.watches[..|w.watches|] == w.watches
    ensures var written := if kind == StateList then StatesOf(r, id) else SelectorsOf(r, id);
      && |written| == |items|
      && forall i :: 0 <= i < |items| ==> written[i] == items[i].value
    ensures kind == StateList ==> SelectorsOf(r, id) == SelectorsOf(w, id)
    ensures kind == SelectorList ==> StatesOf(r, id) == StatesOf(w, id)
    ensures StopsOf(r, kind, Channel(id)) == seq(|items|, j => |w.watches| + j)
    ensures CleanupsOf(r, id) == CleanupsOf(w, id) + [kind]
    ensures r.watches == w.watches + SvelteWatches(id, kind, items)
    ensures kind == StateList ==>
      && r.stateWritables == w.stateWritables[id := StatesOf(r, id)] && r.selectorWritables == w.selectorWritables
      && r.stateStops == w.stateStops[Channel(id) := StopsOf(r, kind, Channel(id))] && r.selectorStops == w.selectorStops
    ensures kind == SelectorList ==>
      && r.selectorWritables == w.selectorWritables[id := SelectorsOf(r, id)] && r.stateWritables == w.stateWritables
      && r.selectorStops == w.selectorStops[Channel(id) := StopsOf(r, kind, Channel(id))] && r.stateStops == w.stateStops
    ensures r.svelteCleanups == w.svelteCleanups[id := CleanupsOf(r, id)]
    ensures r.(watches := w.watches, stateWritables := w.stateWritables, selectorWritables := w.selectorWritables,
               stateStops := w.stateStops, selectorStops := w.selectorStops, svelteCleanups := w.svelteCleanups) == w
  {
    var initial := seq(|items|, i requires 0 <= i < |items| => items[i].value);
    var w0 := Replaced(w, id, kind, initial);
    var r := WatchAll(w0, Unchecked, SvelteRoutes(id, kind, |items|), items);
    SvelteWatched(w0, id, kind, items, r);
    var w1 := RecordStops(r.world, kind, Channel(id), r.handles);
    w1.(svelteCleanups := w1.svelteCleanups[id := CleanupsOf(w, id) + [kind]])
  }

  // ---- the deferred flush ----

  /**
   The oldest queued `setTimeout` callback. React deletes the flag and
   re-renders; Angular assigns every pending field, then deletes; Svelte
   sets every pending writable, then deletes. A missing entry (Angular,
   Svelte) or a key without a writable (Svelte) throws before the delete.
   */
  function RunNext<V>(w: World<V>): (r: (World<V>, Outcome))
    ensures w.coalescer.queue == [] ==> r == (w, NoTask)
    ensures w.coalescer.queue != [] ==> r.0.coalescer.queue == w.coalescer.queue[1..] && r.0.watches == w.watches && r.1 != NoTask
    ensures w.coalescer.queue != [] && !w.coalescer.queue[0].Channel? ==>
      r.0.stateWritables == w.stateWritables && r.0.selectorWritables == w.selectorWritables
    ensures r.1 == Completed ==> r.0.coalescer.pending == w.coalescer.pending - {w.coalescer.queue[0]}
    ensures r.1 != Completed ==> r.0.coalescer.pending == w.coalescer.pending
    ensures Coalescer.Consistent(w.coalescer) ==> Coalescer.Consistent(r.0.coalescer)
    ensures Coalescer.Consistent(w.coalescer) && r.1 == TaskThrew ==> w.coalescer.queue[0].Channel?
    ensures && r.0.stateStops == w.stateStops && r.0.selectorStops == w.selectorStops
            && r.0.viewCleanups == w.viewCleanups && r.0.svelteCleanups == w.svelteCleanups
    ensures forall inst :: (w.coalescer.queue == [] || w.coalescer.queue[0] != Component(inst)) ==>
      InstanceOf(r.0, inst) == InstanceOf(w, inst)
    ensures forall id :: (w.coalescer.queue == [] || w.coalescer.queue[0] != Channel(id)) ==>
      StatesOf(r.0, id) == StatesOf(w, id) && SelectorsOf(r.0, id) == SelectorsOf(w, id)
    ensures forall view :: (w.coalescer.queue == [] || w.coalescer.queue[0] != View(view)) ==>
      RendersOf(r.0, view) == RendersOf(w, view)
    ensures r.1 == TaskThrew <==>
      && w.coalescer.queue != []
      && var c := w.coalescer.queue[0];
        || (!c.View? && c !in w.coalescer.pending)
        || (c.Channel? && c in w.coalescer.pending
            && ChannelFlush.ApplyBatch(w.coalescer.pending[c], StatesOf(w, c.id), SelectorsOf(w, c.id)).None?)
  {
    if w.coalescer.queue == [] then (w, NoTask)
    else
      Coalescer.TailConsistent(w.coalescer);
      var (c, entry, s) := Coalescer.Next(w.coalescer);
      match c
      case View(view) =>
        (w.(coalescer := Coalescer.Clear(s, c), renders := w.renders[view := RendersOf(w, view) + 1]), Completed)
      case Component(inst) =>
        if entry.None? then (w.(coalescer := s), TaskThrew)
        else
          var i := InstanceOf(w, inst);
          (w.(instances := w.instances[inst := i.(fields := i.fields + entry.value)], coalescer := Coalescer.Clear(s, c)), Completed)
      case Channel(id) =>
        if entry.None? then (w.(coalescer := s), TaskThrew)
        else
          match ChannelFlush.ApplyBatch(entry.value, StatesOf(w, id), SelectorsOf(w, id))
          case None => (w.(coalescer := s), TaskThrew)
          case Some((states, selectors)) =>
            (w.(stateWritables := w.stateWritables[id := states],
                selectorWritables := w.selectorWritables[id := selectors],
                coalescer := Coalescer.Clear(s, c)), Completed)
  }

  // ---- teardown ----

  /** Call the stop handles: the watches fire no more. Calling one twice does nothing new. */
  function Stop<V>(w: World<V>, handles: seq<nat>): (r: World<V>)
    ensures |r.watches| == |w.watches|
    ensures forall j :: 0 <= j < |w.watches| ==> r.watches[j].source == w.watches[j].source && r.watches[j].route == w.watches[j].route
    ensures forall j :: 0 <= j < |w.watches| ==> (r.watches[j].active <==> w.watches[j].active && j !in handles)
    ensures r.(watches := w.watches) == w
  {
    w.(watches := seq(|w.watches|, j requires 0 <= j < |w.watches| =>
      if j in handles then w.watches[j].(active := false) else w.watches[j]))
  }

  /** What an Angular destroy hook does when called, reading the stop lists at call time. */
  function HookSteps<V>(w: World<V>, inst: nat, hook: Hook): seq<HookStep> {
    match hook
    case NoHook => []
    case UserHook => [UserDestroyRan]
    case StopThen(kind, next) => StopSteps(StopsOf(w, kind, Component(inst))) + HookSteps(w, inst, next)
  }

  function StopSteps(handles: seq<nat>): (steps: seq<HookStep>)
    ensures |steps| == |handles|
    ensures forall j :: 0 <= j < |handles| ==> steps[j] == Stopped(handles[j])
  {
    seq(|handles|, j requires 0 <= j < |handles| => Stopped(handles[j]))
  }

  /** The handles a run of hook steps stops, in order. */
  function StoppedBy(steps: seq<HookStep>): (hs: seq<nat>)
    ensures forall h :: h in hs <==> Stopped(h) in steps
  {
    if steps == [] then []
    else
      var rest := StoppedBy(steps[1..]);
      assert forall st :: st in steps <==> st == steps[0] || st in steps[1..];
      match steps[0]
      case Stopped(h) => [h] + rest
      case UserDestroyRan => rest
  }

  /** The Svelte `onDestroy` callbacks of an id, each reading its stop list at call time. */
  function CleanupHandles<V>(w: World<V>, id: string, kinds: seq<ListKind>): (hs: seq<nat>)
    ensures forall h :: h in hs <==> exists i :: 0 <= i < |kinds| && h in StopsOf(w, kinds[i], Channel(id))
  {
    if kinds == [] then [] else StopsOf(w, kinds[0], Channel(id)) + CleanupHandles(w, id, kinds[1..])
  }

  /** The effect cleanup: stop exactly the handles the view's registration recorded. */
  function Unmount<V>(w: World<V>, view: nat): (r: World<V>)
    ensures r.(watches := w.watches) == w && |r.watches| == |w.watches|
    ensures forall j :: 0 <= j < |w.watches| ==>
      && r.watches[j].source == w.watches[j].source && r.watches[j].route == w.watches[j].route
      && (r.watches[j].active <==> w.watches[j].active && !(view in w.viewCleanups && j in w.viewCleanups[view]))
  {
    if view in w.viewCleanups then Stop(w, w.viewCleanups[view]) else w
  }

  /** `ngOnDestroy`: stop exactly the handles the instance's hook stops when called now. */
  function Destroy<V>(w: World<V>, inst: nat): (r: World<V>)
    ensures r.(watches := w.watches) == w && |r.watches| == |w.watches|
    ensures forall j :: 0 <= j < |w.watches| ==>
      && r.watches[j].source == w.watches[j].source && r.watches[j].route == w.watches[j].route
      && (r.watches[j].active <==> w.watches[j].active && Stopped(j) !in HookSteps(w, inst, InstanceOf(w, inst).onDestroy))
  {
    Stop(w, StoppedBy(HookSteps(w, inst, InstanceOf(w, inst).onDestroy)))
  }

  /** Svelte's `onDestroy`: every callback registered under the id stops the list it reads now. */
  function DestroyChannel<V>(w: World<V>, id: string): (r: World<V>)
    ensures r.(watches := w.watches) == w && |r.watches| == |w.watches|
    ensures forall j :: 0 <= j < |w.watches| ==>
      && r.watches[j].source == w.watches[j].source && r.watches[j].route == w.watches[j].route
      && (r.watches[j].active <==>
            w.watches[j].active && !exists i :: 0 <= i < |CleanupsOf(w, id)| && j in StopsOf(w, CleanupsOf(w, id)[i], Channel(id)))
  {
    Stop(w, CleanupHandles(w, id, CleanupsOf(w, id)))
  }

  // ---- the state machine ----

  function Step<V>(w: World<V>, e: Event<V>): (World<V>, Outcome) {
    match e
    case UseReact(view, subStates, selectors) => RegisterReact(w, view, subStates, selectors)
    case UseStateNg(inst, m) => RegisterNg(w, inst, StateList, m)
    case UseSelectorsNg(inst, m) => RegisterNg(w, inst, SelectorList, m)
    case UseStateAndSelectorsNg(inst, sm, selm) => RegisterNgBoth(w, inst, sm, selm)
    case UseStateSvelte(id, items) => (RegisterSvelte(w, id, StateList, items), Completed)
    case UseSelectorsSvelte(id, items) => (RegisterSvelte(w, id, SelectorList, items), Completed)
    case Change(source, v) => (Notify(w, source, v), Completed)
    case RunNextTask => RunNext(w)
    case UnmountView(view) => (Unmount(w, view), Completed)
    case DestroyComponent(inst) => (Destroy(w, inst), Completed)
    case DestroySvelte(id) => (DestroyChannel(w, id), Completed)
  }

  function Run<V>(w: World<V>, events: seq<Event<V>>): World<V>
    decreases |events|
  {
    if events == [] then w else Run(Step(w, events[0]).0, events[1..])
  }

  /** The outcome of each event of a run, in order. */
  function Outcomes<V>(w: World<V>, events: seq<Event<V>>): (os: seq<Outcome>)
    ensures |os| == |events|
    decreases |events|
  {
    if events == [] then [] else [Step(w, events[0]).1] + Outcomes(Step(w, events[0]).0, events[1..])
  }
}

=== FILE: store_invariants.dfy ===
/**
 The invariant the Store keeps across every event sequence in which no
 Svelte registration cuts off a writable that a still-active watch or a
 pending key of its id addresses: one queued flush per pending consumer and
 none for an idle one, every active Svelte watch addressing a writable that
 exists, and every pending Svelte key decoding to such a writable. Under it
 no deferred flush throws.
 */
module StoreInvariants {
  import opened Validation
  import SlotKeys
  import Coalescer
  import ChannelFlush
  import opened Store

  ghost predicate SlotExists<V>(w: World<V>, id: string, slot: SlotKeys.Slot) {
    ChannelFlush.InRange(slot, |StatesOf(w, id)|, |SelectorsOf(w, id)|)
  }

  ghost predicate RouteInRange<V>(w: World<V>, route: Route) {
    route.PushSlot? ==> SlotExists(w, route.id, route.slot)
  }

  /** Every watch still active addresses an existing writable; stopped ones never fire again. */
  ghost predicate RoutesInRange<V>(w: World<V>) {
    forall j :: 0 <= j < |w.watches| && w.watches[j].active ==> RouteInRange(w, w.watches[j].route)
  }

  /** The keys of a Svelte entry were produced by the encoder and address existing writables. */
  ghost predicate EntryResolves<V>(w: World<V>, id: string, entry: map<string, V>) {
    forall k :: k in entry ==> SlotKeys.Canonical(k) && ChannelFlush.Resolves(k, |StatesOf(w, id)|, |SelectorsOf(w, id)|)
  }

  ghost predicate KeysResolveIn<V>(w: World<V>, s: Coalescer.State<Consumer, string, V>) {
    forall c :: c in s.pending && c.Channel? ==> EntryResolves(w, c.id, s.pending[c])
  }

  /** Keys that resolve keep resolving when the id's writable lists do not get shorter. */
  lemma EntryTransfer<V>(w: World<V>, r: World<V>, id: string, entry: map<string, V>)
    requires EntryResolves(w, id, entry)
    requires |StatesOf(w, id)| <= |StatesOf(r, id)| && |SelectorsOf(w, id)| <= |SelectorsOf(r, id)|
    ensures EntryResolves(r, id, entry)
  {
    forall k | k in entry
      ensures ChannelFlush.Resolves(k, |StatesOf(r, id)|, |SelectorsOf(r, id)|)
    {
      InRangeGrows(SlotKeys.Decode(k).value, |StatesOf(w, id)|, |SelectorsOf(w, id)|, |StatesOf(r, id)|, |SelectorsOf(r, id)|);
    }
  }

  ghost predicate Inv<V>(w: World<V>) {
    && Coalescer.Valid(w.coalescer)
    && RoutesInRange(w)
    && KeysResolveIn(w, w.coalescer)
  }

  /** A slot of the `kind` list at index `n` or beyond. */
  predicate Beyond(slot: SlotKeys.Slot, kind: ListKind, n: nat) {
    (if kind == StateList then slot.StateSlot? else slot.SelectorSlot?) && slot.index >= n
  }

  /**
   Replacing the `kind` writables of Svelte id `id` by `n` fresh ones drops
   a writable that an active watch or a pending key of the id still addresses.
   */
  ghost predicate DropsAddressed<V>(w: World<V>, id: string, kind: ListKind, n: nat) {
    || (exists j :: 0 <= j < |w.watches| && w.watches[j].active && w.watches[j].route.PushSlot?
          && w.watches[j].route.id == id && Beyond(w.watches[j].route.slot, kind, n))
    || (Channel(id) in w.coalescer.pending
          && exists k :: k in w.coalescer.pending[Channel(id)] && SlotKeys.Decode(k).Some? && Beyond(SlotKeys.Decode(k).value, kind, n))
  }

  /** A Svelte registration that leaves a still-addressed writable behind. */
  ghost predicate Shrinks<V>(w: World<V>, e: Event<V>) {
    match e
    case UseStateSvelte(id, items) => DropsAddressed(w, id, StateList, |items|)
    case UseSelectorsSvelte(id, items) => DropsAddressed(w, id, SelectorList, |items|)
    case _ => false
  }

  /** No event of the run drops a writable that is still addressed. */
  ghost predicate Admissible<V>(w: World<V>, events: seq<Event<V>>)
    decreases |events|
  {
    events == [] || (!Shrinks(w, events[0]) && Admissible(Step(w, events[0]).0, events[1..]))
  }

  /** No writable list became shorter. */
  ghost predicate Grows<V>(w: World<V>, r: World<V>) {
    forall id :: |StatesOf(w, id)| <= |StatesOf(r, id)| && |SelectorsOf(w, id)| <= |SelectorsOf(r, id)|
  }

  lemma InRangeGrows(slot: SlotKeys.Slot, states: nat, selectors: nat, states': nat, selectors': nat)
    requires ChannelFlush.InRange(slot, states, selectors) && states <= states' && selectors <= selectors'
    ensures ChannelFlush.InRange(slot, states', selectors')
  {
  }

  lemma GrowsKeepsResolution<V>(w: World<V>, r: World<V>, s: Coalescer.State<Consumer, string, V>)
    requires Grows(w, r) && KeysResolveIn(w, s)
    ensures KeysResolveIn(r, s)
  {
    forall c | c in s.pending && c.Channel?
      ensures EntryResolves(r, c.id, s.pending[c])
    {
      assert |StatesOf(w, c.id)| <= |StatesOf(r, c.id)| && |SelectorsOf(w, c.id)| <= |SelectorsOf(r, c.id)|;
      EntryTransfer(w, r, c.id, s.pending[c]);
    }
  }

  lemma GrowsKeepsRoute<V>(w: World<V>, r: World<V>, route: Route)
    requires Grows(w, r) && RouteInRange(w, route)
    ensures RouteInRange(r, route)
  {
    if route.PushSlot? {
      InRangeGrows(route.slot, |StatesOf(w, route.id)|, |SelectorsOf(w, route.id)|, |StatesOf(r, route.id)|, |SelectorsOf(r, route.id)|);
    }
  }

  /** The invariant reads only the pending map, the watches' routes and the writables. */
  lemma Transfer<V>(w: World<V>, r: World<V>, s: Coalescer.State<Consumer, string, V>)
    requires RoutesInRange(w) && KeysResolveIn(w, s)
    requires r.stateWritables == w.stateWritables && r.selectorWritables == w.selectorWritables
    requires |r.watches| == |w.watches|
    requires forall j :: 0 <= j < |w.watches| ==> r.watches[j].route == w.watches[j].route
    requires forall j :: 0 <= j < |w.watches| && r.watches[j].active ==> w.watches[j].active
    ensures RoutesInRange(r) && KeysResolveIn(r, s)
  {
    forall j | 0 <= j < |r.watches| && r.watches[j].active ensures RouteInRange(r, r.watches[j].route) {
      assert RouteInRange(w, w.watches[j].route);
      var route := w.watches[j].route;
      if route.PushSlot? {
        assert StatesOf(r, route.id) == StatesOf(w, route.id) && SelectorsOf(r, route.id) == SelectorsOf(w, route.id);
      }
    }
    assert Grows(w, r) by {
      forall id ensures |StatesOf(w, id)| <= |StatesOf(r, id)| && |SelectorsOf(w, id)| <= |SelectorsOf(r, id)| {
        assert StatesOf(r, id) == StatesOf(w, id) && SelectorsOf(r, id) == SelectorsOf(w, id);
      }
    }
    GrowsKeepsResolution(w, r, s);
  }

  lemma InvFrame<V>(w: World<V>, r: World<V>)
    requires Inv(w)
    requires r.coalescer == w.coalescer
    requires r.stateWritables == w.stateWritables && r.selectorWritables == w.selectorWritables
    requires |r.watches| == |w.watches|
    requires forall j :: 0 <= j < |w.watches| ==> r.watches[j].route == w.watches[j].route
    requires forall j :: 0 <= j < |w.watches| && r.watches[j].active ==> w.watches[j].active
    ensures Inv(r)
  {
    Transfer(w, r, w.coalescer);
  }

  /** One callback keeps the Svelte keys resolvable when its watch addresses an existing writable. */
  lemma RecordKeepsKeys<V>(w: World<V>, s: Coalescer.State<Consumer, string, V>, route: Route, v: V)
    requires RouteInRange(w, route) && KeysResolveIn(w, s)
    ensures KeysResolveIn(w, Coalescer.Record(s, Target(route), UpdateOf(route, v)))
  {
    var r := Coalescer.Record(s, Target(route), UpdateOf(route, v));
    forall c | c in r.pending && c.Channel?
      ensures EntryResolves(w, c.id, r.pending[c])
    {
      if c == Target(route) {
        forall k | k in r.pending[c]
          ensures SlotKeys.Canonical(k) && ChannelFlush.Resolves(k, |StatesOf(w, c.id)|, |SelectorsOf(w, c.id)|)
        {
          if k in UpdateOf(route, v) {
            assert route.PushSlot? && k == SlotKeys.Encode(route.slot);
            SlotKeys.EncodeCanonical(route.slot);
            SlotKeys.DecodeEncode(route.slot);
          } else {
            assert k in Coalescer.EntryOf(s, c);
          }
        }
      }
    }
  }

  /** A key written by a firing Svelte watch decodes to the writable the watch addresses. */
  lemma {:induction false} FireKeepsKeys<V>(w: World<V>, s: Coalescer.State<Consumer, string, V>, source: nat, v: V, from: nat)
    requires RoutesInRange(w) && KeysResolveIn(w, s)
    ensures KeysResolveIn(w, Fire(s, w.watches, source, v, from))
    decreases |w.watches| - from
  {
    if from < |w.watches| {
      var watch := w.watches[from];
      if Fires(watch, source) {
        assert RouteInRange(w, watch.route);
        RecordKeepsKeys(w, s, watch.route, v);
        FireKeepsKeys(w, Coalescer.Record(s, Target(watch.route), UpdateOf(watch.route, v)), source, v, from + 1);
      } else {
        FireKeepsKeys(w, s, source, v, from + 1);
      }
    }
  }

  /** A change's callbacks record only keys their watches address, so the invariant survives them. */
  lemma ChangeKeepsInv<V>(w: World<V>, source: nat, v: V)
    requires Inv(w)
    ensures Inv(Notify(w, source, v))
  {
    var s := Fire(w.coalescer, w.watches, source, v, 0);
    FireKeepsKeys(w, w.coalescer, source, v, 0);
    Transfer(w, w.(coalescer := s), s);
  }

  /** A React or Angular flush changes nothing the invariant reads but the pending map. */
  lemma FlushViewOrComponentKeepsInv<V>(w: World<V>)
    requires Inv(w) && w.coalescer.queue != [] && !w.coalescer.queue[0].Channel?
    ensures Inv(RunNext(w).0) && RunNext(w).1 == Completed
  {
    var c := w.coalescer.queue[0];
    Coalescer.FlushValid(w.coalescer);
    var flushed := Coalescer.Flush(w.coalescer).2;
    var r := RunNext(w).0;
    assert RunNext(w).1 == Completed;
    assert r.coalescer.pending == flushed.pending;
    assert r.coalescer == flushed;
    Transfer(w, r, flushed);
  }

  /** A Svelte flush under the invariant sets every pending writable and keeps the invariant. */
  lemma FlushChannelKeepsInv<V>(w: World<V>)
    requires Inv(w) && w.coalescer.queue != [] && w.coalescer.queue[0].Channel?
    ensures Inv(RunNext(w).0) && RunNext(w).1 == Completed
  {
    var c := w.coalescer.queue[0];
    var id := c.id;
    Coalescer.FlushValid(w.coalescer);
    var flushed := Coalescer.Flush(w.coalescer).2;
    assert KeysResolveIn(w, flushed);
    var entry := w.coalescer.pending[c];
    var applied := ChannelFlush.ApplyBatch(entry, StatesOf(w, id), SelectorsOf(w, id));
    assert applied.Some?;
    var (states, selectors) := applied.value;
    var r := RunNext(w).0;
    assert r.stateWritables == w.stateWritables[id := states];
    assert r.selectorWritables == w.selectorWritables[id := selectors];
    assert r.coalescer == flushed && r.watches == w.watches;
    assert Grows(w, r) by {
      forall id' ensures |StatesOf(w, id')| <= |StatesOf(r, id')| && |SelectorsOf(w, id')| <= |SelectorsOf(r, id')| {
      }
    }
    GrowsKeepsResolution(w, r, flushed);
    forall j | 0 <= j < |r.watches| && r.watches[j].active ensures RouteInRange(r, r.watches[j].route) {
      assert RouteInRange(w, w.watches[j].route);
      GrowsKeepsRoute(w, r, w.watches[j].route);
    }
  }

  /** Under the invariant the oldest flush finds its entry and every writable it sets. */
  lemma RunNextKeepsInv<V>(w: World<V>)
    requires Inv(w)
    ensures Inv(RunNext(w).0)
    ensures RunNext(w).1 != TaskThrew
  {
    if w.coalescer.queue != [] {
      if w.coalescer.queue[0].Channel? {
        FlushChannelKeepsInv(w);
      } else {
        FlushViewOrComponentKeepsInv(w);
      }
    }
  }

  /** Stopping watches touches nothing the invariant reads but the active flags. */
  lemma StopKeepsInv<V>(w: World<V>, handles: seq<nat>)
    requires Inv(w)
    ensures Inv(Stop(w, handles))
  {
    InvFrame(w, Stop(w, handles));
  }

  /** Watches appended to an unchanged set of writables keep every route in range. */
  lemma AppendKeepsRoutes<V>(w: World<V>, r: World<V>, routes: seq<Route>)
    requires RoutesInRange(w)
    requires r.stateWritables == w.stateWritables && r.selectorWritables == w.selectorWritables
    requires |r.watches| <= |w.watches| + |routes|
    requires |w.watches| <= |r.watches| && r.watches[..|w.watches|] == w.watches
    requires forall j :: |w.watches| <= j < |r.watches| ==> r.watches[j].route == routes[j - |w.watches|]
    requires forall j :: 0 <= j < |routes| ==> RouteInRange(w, routes[j])
    ensures RoutesInRange(r)
  {
    forall j | 0 <= j < |r.watches| && r.watches[j].active ensures RouteInRange(r, r.watches[j].route) {
      var route := r.watches[j].route;
      if j < |w.watches| {
        assert r.watches[j] == r.watches[..|w.watches|][j];
        assert RouteInRange(w, w.watches[j].route);
      } else {
        assert RouteInRange(w, routes[j - |w.watches|]);
      }
      if route.PushSlot? {
        assert StatesOf(r, route.id) == StatesOf(w, route.id) && SelectorsOf(r, route.id) == SelectorsOf(w, route.id);
      }
    }
  }

  /** Watches a registration installs address existing writables, so the invariant survives it. */
  lemma WatchAllKeepsInv<V>(w: World<V>, g: Guard, routes: seq<Route>, items: seq<Item<V>>)
    requires Inv(w) && |routes| == |items|
    requires forall j :: 0 <= j < |routes| ==> RouteInRange(w, routes[j])
    ensures Inv(WatchAll(w, g, routes, items).world)
  {
    var reg := WatchAll(w, g, routes, items);
    var r := reg.world;
    assert OnlyWatchesAndFields(w, r);
    assert forall j :: |w.watches| <= j < |r.watches| ==> r.watches[j].route == routes[j - |w.watches|] by {
      forall j | |w.watches| <= j < |r.watches| ensures r.watches[j].route == routes[j - |w.watches|] {
        assert r.watches[|w.watches| + (j - |w.watches|)] == Watch(items[j - |w.watches|].source, routes[j - |w.watches|], true);
      }
    }
    AppendKeepsRoutes(w, r, routes);
    assert Grows(w, r) by {
      forall id ensures |StatesOf(w, id)| <= |StatesOf(r, id)| && |SelectorsOf(w, id)| <= |SelectorsOf(r, id)| {
        assert StatesOf(r, id) == StatesOf(w, id) && SelectorsOf(r, id) == SelectorsOf(w, id);
      }
    }
    GrowsKeepsResolution(w, r, r.coalescer);
  }

  /** Setting a stop list, cleanup or destroy hook does not touch what the invariant reads. */
  lemma BookkeepingKeepsInv<V>(w: World<V>, r: World<V>)
    requires Inv(w)
    requires r.watches == w.watches && r.coalescer == w.coalescer
    requires r.stateWritables == w.stateWritables && r.selectorWritables == w.selectorWritables
    ensures Inv(r)
  {
    InvFrame(w, r);
  }

  /** `useStateAndSelectorsReact` (and so `useStateReact` and `useSelectorsReact`) keeps the invariant, whether or not a guard throws. */
  lemma RegisterReactKeepsInv<V>(w: World<V>, view: nat, subStates: seq<Item<V>>, selectors: seq<Item<V>>)
    requires Inv(w)
    ensures Inv(RegisterReact(w, view, subStates, selectors).0)
  {
    var items := subStates + selectors;
    var routes := ReactRoutes(view, |items|);
    var r := WatchAll(w, SubStateOrComputed, routes, items);
    WatchAllKeepsInv(w, SubStateOrComputed, routes, items);
    if !r.rejected {
      BookkeepingKeepsInv(r.world, r.world.(viewCleanups := r.world.viewCleanups[view := r.handles]));
    }
  }

  /** `useStateNg` and `useSelectorsNg` keep the invariant, whether or not a guard throws. */
  lemma RegisterNgKeepsInv<V>(w: World<V>, inst: nat, kind: ListKind, entries: seq<(string, Item<V>)>)
    requires Inv(w)
    ensures Inv(RegisterNg(w, inst, kind, entries).0)
  {
    var g := if kind == StateList then SubStateOnly else Unchecked;
    var routes := NgRoutes(inst, entries);
    var r := WatchAll(w, g, routes, NgItems(entries));
    WatchAllKeepsInv(w, g, routes, NgItems(entries));
    var w1 := RecordStops(r.world, kind, Component(inst), r.handles);
    BookkeepingKeepsInv(r.world, w1);
    BookkeepingKeepsInv(w1, WrapDestroy(w1, inst, kind));
  }

  /** A slot that the replacement does not cut off still exists. */
  lemma SlotSurvives<V>(w: World<V>, id: string, kind: ListKind, initial: seq<V>, id': string, slot: SlotKeys.Slot)
    requires SlotExists(w, id', slot)
    requires id' == id ==> !Beyond(slot, kind, |initial|)
    ensures SlotExists(Replaced(w, id, kind, initial), id', slot)
  {
  }

  /** Replacing writables that nothing active or pending addresses beyond the new length keeps the invariant. */
  lemma ReplacedKeepsInv<V>(w: World<V>, id: string, kind: ListKind, initial: seq<V>)
    requires Inv(w) && !DropsAddressed(w, id, kind, |initial|)
    ensures Inv(Replaced(w, id, kind, initial))
  {
    var w0 := Replaced(w, id, kind, initial);
    forall j | 0 <= j < |w0.watches| && w0.watches[j].active
      ensures RouteInRange(w0, w0.watches[j].route)
    {
      var route := w.watches[j].route;
      assert RouteInRange(w, route);
      if route.PushSlot? {
        SlotSurvives(w, id, kind, initial, route.id, route.slot);
      }
    }
    forall c | c in w0.coalescer.pending && c.Channel?
      ensures EntryResolves(w0, c.id, w0.coalescer.pending[c])
    {
      var entry := w.coalescer.pending[c];
      assert EntryResolves(w, c.id, entry);
      forall k | k in entry
        ensures ChannelFlush.Resolves(k, |StatesOf(w0, c.id)|, |SelectorsOf(w0, c.id)|)
      {
        var slot := SlotKeys.Decode(k).value;
        assert c.id == id ==> !Beyond(slot, kind, |initial|);
        SlotSurvives(w, id, kind, initial, c.id, slot);
      }
    }
  }

  /**
   A Svelte registration keeps the invariant unless it cuts off a writable
   that a still-active watch or a pending key of the id addresses.
   */
  lemma RegisterSvelteKeepsInv<V>(w: World<V>, id: string, kind: ListKind, items: seq<Item<V>>)
    requires Inv(w)
    requires !DropsAddressed(w, id, kind, |items|)
    ensures Inv(RegisterSvelte(w, id, kind, items))
  {
    var initial := seq(|items|, i requires 0 <= i < |items| => items[i].value);
    var w0 := Replaced(w, id, kind, initial);
    ReplacedKeepsInv(w, id, kind, initial);
    var routes := SvelteRoutes(id, kind, |items|);
    forall j | 0 <= j < |routes| ensures RouteInRange(w0, routes[j]) {
    }
    WatchAllKeepsInv(w0, Unchecked, routes, items);
    var r := WatchAll(w0, Unchecked, routes, items);
    var w1 := RecordStops(r.world, kind, Channel(id), r.handles);
    BookkeepingKeepsInv(r.world, w1);
    BookkeepingKeepsInv(w1, w1.(svelteCleanups := w1.svelteCleanups[id := CleanupsOf(w, id) + [kind]]));
  }

  /** Every admissible event keeps the invariant, and no flush throws. */
  lemma StepKeepsInv<V>(w: World<V>, e: Event<V>)
    requires Inv(w) && !Shrinks(w, e)
    ensures Inv(Step(w, e).0)
    ensures Step(w, e).1 != TaskThrew
  {
    if e.UseReact? || e.UseStateNg? || e.UseSelectorsNg? || e.UseStateAndSelectorsNg? {
      RegistrationStepKeepsInv(w, e);
    } else if e.UseStateSvelte? || e.UseSelectorsSvelte? {
      SvelteStepKeepsInv(w, e);
    } else if e.Change? {
      ChangeKeepsInv(w, e.source, e.value);
    } else if e.RunNextTask? {
      RunNextKeepsInv(w);
    } else {
      TeardownStepKeepsInv(w, e);
    }
  }

  /** The React and Angular registration events keep the invariant. */
  lemma RegistrationStepKeepsInv<V>(w: World<V>, e: Event<V>)
    requires Inv(w)
    requires e.UseReact? || e.UseStateNg? || e.UseSelectorsNg? || e.UseStateAndSelectorsNg?
    ensures Inv(Step(w, e).0)
    ensures Step(w, e).1 != TaskThrew
  {
    match e {
      case UseReact(view, subStates, selectors) => RegisterReactKeepsInv(w, view, subStates, selectors);
      case UseStateNg(inst, m) => RegisterNgKeepsInv(w, inst, StateList, m);
      case UseSelectorsNg(inst, m) => RegisterNgKeepsInv(w, inst, SelectorList, m);
      case UseStateAndSelectorsNg(inst, sm, selm) =>
        RegisterNgKeepsInv(w, inst, StateList, sm);
        RegisterNgKeepsInv(RegisterNg(w, inst, StateList, sm).0, inst, SelectorList, selm);
    }
  }

  /** The Svelte registration events keep the invariant unless they shrink the writables. */
  lemma SvelteStepKeepsInv<V>(w: World<V>, e: Event<V>)
    requires Inv(w) && !Shrinks(w, e)
    requires e.UseStateSvelte? || e.UseSelectorsSvelte?
    ensures Inv(Step(w, e).0)
    ensures Step(w, e).1 != TaskThrew
  {
    if e.UseStateSvelte? {
      RegisterSvelteKeepsInv(w, e.id, StateList, e.subStates);
    } else {
      RegisterSvelteKeepsInv(w, e.id, SelectorList, e.selectors);
    }
  }

  /** Unmounting, `ngOnDestroy` and `onDestroy` only stop watches, so they keep the invariant. */
  lemma TeardownStepKeepsInv<V>(w: World<V>, e: Event<V>)
    requires Inv(w)
    requires e.UnmountView? || e.DestroyComponent? || e.DestroySvelte?
    ensures Inv(Step(w, e).0)
    ensures Step(w, e).1 != TaskThrew
  {
    if e.UnmountView? {
      if e.view in w.viewCleanups {
        StopKeepsInv(w, w.viewCleanups[e.view]);
      }
    } else if e.DestroyComponent? {
      StopKeepsInv(w, StoppedBy(HookSteps(w, e.instance, InstanceOf(w, e.instance).onDestroy)));
    } else {
      StopKeepsInv(w, CleanupHandles(w, e.id, CleanupsOf(w, e.id)));
    }
  }

  /**
   Across any admissible run: at most one flush is queued per consumer, a
   queued flush always finds its consumer's entry, and no flush throws.
   */
  lemma {:induction false} RunKeepsInv<V>(w: World<V>, events: seq<Event<V>>)
    requires Inv(w) && Admissible(w, events)
    ensures Inv(Run(w, events))
    ensures TaskThrew !in Outcomes(w, events)
    decreases |events|
  {
    if events != [] {
      StepKeepsInv(w, events[0]);
      RunKeepsInv(Step(w, events[0]).0, events[1..]);
    }
  }

  /** The store starts out satisfying the invariant. */
  lemma InitInv<V>(instances: map<nat, Instance<V>>)
    ensures Inv(Init(instances))
  {
  }
}

=== FILE: store_properties.dfy ===
/**
 Properties of the Store as written: what a flush delivers, what teardown
 does and does not undo, how Angular destroy hooks chain, what a rejected
 registration leaves behind, and what happens to a Svelte id that is
 registered again with fewer items.
 */
module StoreProperties {
  import opened Wrappers
  import opened Validation
  import SlotKeys
  import Coalescer
  import ChannelFlush
  import opened Store
  import opened StoreInvariants

  predicate IsRegistration<V>(e: Event<V>) {
    e.UseReact? || e.UseStateNg? || e.UseSelectorsNg? || e.UseStateAndSelectorsNg? || e.UseStateSvelte? || e.UseSelectorsSvelte?
  }

  /** The event registers watches that record into `c`. */
  predicate Registers<V>(e: Event<V>, c: Consumer) {
    match e
    case UseReact(view, _, _) => c == View(view)
    case UseStateNg(inst, _) => c == Component(inst)
    case UseSelectorsNg(inst, _) => c == Component(inst)
    case UseStateAndSelectorsNg(inst, _, _) => c == Component(inst)
    case UseStateSvelte(id, _) => c == Channel(id)
    case UseSelectorsSvelte(id, _) => c == Channel(id)
    case _ => false
  }

  predicate IsTeardown<V>(e: Event<V>) {
    e.UnmountView? || e.DestroyComponent? || e.DestroySvelte?
  }

  // ---- flushes ----

  /** The React flush deletes the view's flag and calls `updateView({})` exactly once. */
  lemma FlushViewRendersOnce<V>(w: World<V>)
    requires Coalescer.Consistent(w.coalescer) && w.coalescer.queue != [] && w.coalescer.queue[0].View?
    ensures var view := w.coalescer.queue[0].view;
      var r := RunNext(w).0;
      && RunNext(w).1 == Completed
      && RendersOf(r, view) == RendersOf(w, view) + 1
      && (forall other :: other != view ==> RendersOf(r, other) == RendersOf(w, other))
      && View(view) !in r.coalescer.pending && View(view) !in r.coalescer.queue
      && r.coalescer.queue == w.coalescer.queue[1..]
  {
  }

  /**
   The Angular flush assigns every pending field of the instance once, with
   its latest value, then deletes the entry; other consumers keep theirs.
   */
  lemma FlushComponentAssignsBatch<V>(w: World<V>)
    requires Coalescer.Consistent(w.coalescer) && w.coalescer.queue != [] && w.coalescer.queue[0].Component?
    ensures var c := w.coalescer.queue[0];
      var r := RunNext(w).0;
      && RunNext(w).1 == Completed
      && InstanceOf(r, c.instance).fields == InstanceOf(w, c.instance).fields + w.coalescer.pending[c]
      && InstanceOf(r, c.instance).onDestroy == InstanceOf(w, c.instance).onDestroy
      && c !in r.coalescer.pending && c !in r.coalescer.queue
      && (forall d :: d in r.coalescer.pending ==> d in w.coalescer.pending && r.coalescer.pending[d] == w.coalescer.pending[d])
      && (forall other :: other != c.instance ==> InstanceOf(r, other) == InstanceOf(w, other))
      && (forall id :: StatesOf(r, id) == StatesOf(w, id) && SelectorsOf(r, id) == SelectorsOf(w, id))
      && (forall view :: RendersOf(r, view) == RendersOf(w, view))
  {
  }

  /**
   The Svelte flush sets writable i of each list to the value pending under
   `state${i}` or `selector${i}`, leaves the others, and deletes the entry.
   */
  lemma FlushChannelSetsWritables<V>(w: World<V>)
    requires Coalescer.Consistent(w.coalescer) && w.coalescer.queue != [] && w.coalescer.queue[0].Channel?
    requires var c := w.coalescer.queue[0];
      forall k :: k in w.coalescer.pending[c] ==> ChannelFlush.Resolves(k, |StatesOf(w, c.id)|, |SelectorsOf(w, c.id)|)
    ensures var c := w.coalescer.queue[0];
      var batch := w.coalescer.pending[c];
      var r := RunNext(w).0;
      && RunNext(w).1 == Completed
      && |StatesOf(r, c.id)| == |StatesOf(w, c.id)| && |SelectorsOf(r, c.id)| == |SelectorsOf(w, c.id)|
      && (forall i :: 0 <= i < |StatesOf(w, c.id)| ==>
            StatesOf(r, c.id)[i] == ChannelFlush.SlotValue(batch, SlotKeys.StateSlot(i), StatesOf(w, c.id)[i]))
      && (forall i :: 0 <= i < |SelectorsOf(w, c.id)| ==>
            SelectorsOf(r, c.id)[i] == ChannelFlush.SlotValue(batch, SlotKeys.SelectorSlot(i), SelectorsOf(w, c.id)[i]))
      && c !in r.coalescer.pending && c !in r.coalescer.queue
      && (forall id :: id != c.id ==> StatesOf(r, id) == StatesOf(w, id) && SelectorsOf(r, id) == SelectorsOf(w, id))
      && (forall inst :: InstanceOf(r, inst) == InstanceOf(w, inst))
      && (forall view :: RendersOf(r, view) == RendersOf(w, view))
  {
  }

  /**
   Sub-state and selector watches of one Angular instance feed one entry:
   a change of each, starting idle, queues a single flush carrying both
   fields, the second with the latest value.
   */
  lemma MixedBurstQueuesOneFlush<V>(w: World<V>, inst: nat, j1: nat, j2: nat, v1: V, v2: V)
    requires Inv(w) && Component(inst) !in w.coalescer.pending
    requires j1 < |w.watches| && j2 < |w.watches|
    requires w.watches[j1].active && w.watches[j1].route.AssignField? && w.watches[j1].route.instance == inst
    requires w.watches[j2].active && w.watches[j2].route.AssignField? && w.watches[j2].route.instance == inst
    ensures var w1 := Notify(w, w.watches[j1].source, v1);
      var w2 := Notify(w1, w.watches[j2].source, v2);
      var c := Component(inst);
      && Inv(w2)
      && c in w2.coalescer.queue && Coalescer.Distinct(w2.coalescer.queue)
      && w.watches[j1].route.field in w2.coalescer.pending[c]
      && w2.coalescer.pending[c][w.watches[j2].route.field] == v2
  {
    var c := Component(inst);
    var f1, f2 := w.watches[j1].route.field, w.watches[j2].route.field;
    var w1 := Notify(w, w.watches[j1].source, v1);
    var w2 := Notify(w1, w.watches[j2].source, v2);
    ChangeKeepsInv(w, w.watches[j1].source, v1);
    ChangeKeepsInv(w1, w.watches[j2].source, v2);
    assert c in w1.coalescer.pending && f1 in w1.coalescer.pending[c] by {
      assert Fires(w.watches[j1], w.watches[j1].source) && Target(w.watches[j1].route) == c;
      assert f1 in UpdateOf(w.watches[j1].route, v1);
    }
    assert f1 in w2.coalescer.pending[c] by {
      assert Kept(w1.coalescer, w.watches, w.watches[j2].source, v2, 0, w2.coalescer);
    }
    assert w2.coalescer.pending[c][f2] == v2 by {
      assert Fires(w.watches[j2], w.watches[j2].source) && Target(w.watches[j2].route) == c;
      assert f2 in UpdateOf(w.watches[j2].route, v2);
    }
  }

  // ---- stopping ----

  /** No firing watch reaches a consumer whose watches are all stopped. */
  lemma {:induction false} SilencedNotTargeted(watches: seq<Watch>, source: nat, from: nat, c: Consumer)
    requires forall j :: 0 <= j < |watches| && Target(watches[j].route) == c ==> !watches[j].active
    ensures !Targeted(watches, source, from, c)
    decreases |watches| - from
  {
    if from < |watches| {
      SilencedNotTargeted(watches, source, from + 1, c);
    }
  }

  /** Every watch that records into `c` has been stopped. */
  ghost predicate Silenced<V>(w: World<V>, c: Consumer) {
    forall j :: 0 <= j < |w.watches| && Target(w.watches[j].route) == c ==> !w.watches[j].active
  }

  /** A flush never creates a pending entry, and consumers other than its own keep theirs and their place. */
  lemma RunNextFrame<V>(w: World<V>)
    ensures RunNext(w).0.watches == w.watches
    ensures RunNext(w).0.coalescer.pending.Keys <= w.coalescer.pending.Keys
    ensures forall c :: c in w.coalescer.pending && c !in w.coalescer.queue ==>
      c in RunNext(w).0.coalescer.pending && c !in RunNext(w).0.coalescer.queue
  {
  }

  /** Watches installed for other consumers leave `c` silenced. */
  lemma WatchAllSilenced<V>(w: World<V>, g: Guard, routes: seq<Route>, items: seq<Item<V>>, c: Consumer)
    requires |routes| == |items| && Silenced(w, c)
    requires forall j :: 0 <= j < |routes| ==> Target(routes[j]) != c
    ensures Silenced(WatchAll(w, g, routes, items).world, c)
  {
    var r := WatchAll(w, g, routes, items);
    var n := |w.watches|;
    var ws := r.world.watches;
    assert |ws| == n + |r.handles| && ws[..n] == w.watches;
    assert forall i :: 0 <= i < |r.handles| ==> ws[n + i] == Watch(items[i].source, routes[i], true);
    forall j | 0 <= j < |ws|
      ensures Target(ws[j].route) == c ==> !ws[j].active
    {
      if j < n {
        assert ws[j] == ws[..n][j];
      } else {
        var i := j - n;
        assert i < |r.handles|;
        assert ws[n + i].route == routes[i];
      }
    }
  }

  /** An Angular registration of another instance leaves `c` silenced. */
  lemma RegisterNgSilenced<V>(w: World<V>, inst: nat, kind: ListKind, entries: seq<(string, Item<V>)>, c: Consumer)
    requires Silenced(w, c) && c != Component(inst)
    ensures Silenced(RegisterNg(w, inst, kind, entries).0, c)
  {
    var g := if kind == StateList then SubStateOnly else Unchecked;
    WatchAllSilenced(w, g, NgRoutes(inst, entries), NgItems(entries), c);
    assert RegisterNg(w, inst, kind, entries).0.watches == WatchAll(w, g, NgRoutes(inst, entries), NgItems(entries)).world.watches;
  }

  /** A Svelte registration of another id leaves `c` silenced. */
  lemma RegisterSvelteSilenced<V>(w: World<V>, id: string, kind: ListKind, items: seq<Item<V>>, c: Consumer)
    requires Silenced(w, c) && c != Channel(id)
    ensures Silenced(RegisterSvelte(w, id, kind, items), c)
  {
    var initial := seq(|items|, i requires 0 <= i < |items| => items[i].value);
    var w0 := Replaced(w, id, kind, initial);
    WatchAllSilenced(w0, Unchecked, SvelteRoutes(id, kind, |items|), items, c);
    assert RegisterSvelte(w, id, kind, items).watches == WatchAll(w0, Unchecked, SvelteRoutes(id, kind, |items|), items).world.watches;
  }

  /** A registration of another consumer leaves `c` silenced. */
  lemma RegistrationSilenced<V>(w: World<V>, c: Consumer, e: Event<V>)
    requires Silenced(w, c) && IsRegistration(e) && !Registers(e, c)
    ensures Silenced(Step(w, e).0, c)
  {
    match e {
      case UseReact(view, subStates, selectors) =>
        var items := subStates + selectors;
        WatchAllSilenced(w, SubStateOrComputed, ReactRoutes(view, |items|), items, c);
      case UseStateNg(inst, m) => RegisterNgSilenced(w, inst, StateList, m, c);
      case UseSelectorsNg(inst, m) => RegisterNgSilenced(w, inst, SelectorList, m, c);
      case UseStateAndSelectorsNg(inst, sm, selm) =>
        RegisterNgSilenced(w, inst, StateList, sm, c);
        RegisterNgSilenced(RegisterNg(w, inst, StateList, sm).0, inst, SelectorList, selm, c);
      case UseStateSvelte(id, items) => RegisterSvelteSilenced(w, id, StateList, items, c);
      case UseSelectorsSvelte(id, items) => RegisterSvelteSilenced(w, id, SelectorList, items, c);
    }
  }

  /** An idle consumer whose watches are all stopped stays so across any event that does not register it again. */
  lemma SilencedStep<V>(w: World<V>, c: Consumer, e: Event<V>)
    requires c !in w.coalescer.pending && Silenced(w, c) && !Registers(e, c)
    ensures c !in Step(w, e).0.coalescer.pending && Silenced(Step(w, e).0, c)
  {
    if IsRegistration(e) {
      RegistrationKeepsCoalescer(w, e);
      RegistrationSilenced(w, c, e);
    } else if e.Change? {
      SilencedNotTargeted(w.watches, e.source, 0, c);
    } else if e.RunNextTask? {
      RunNextFrame(w);
    } else {
      TeardownKeepsPendingFlushes(w, e);
    }
  }

  /**
   Once every watch of a Svelte id is stopped and nothing is pending for it,
   the id may be registered again with any number of items.
   */
  lemma SilencedIdMayShrink<V>(w: World<V>, id: string, items: seq<Item<V>>)
    requires Silenced(w, Channel(id)) && Channel(id) !in w.coalescer.pending
    ensures !Shrinks(w, UseStateSvelte(id, items)) && !Shrinks(w, UseSelectorsSvelte(id, items))
  {
    forall j | 0 <= j < |w.watches| && w.watches[j].route.PushSlot? && w.watches[j].route.id == id
      ensures !w.watches[j].active
    {
      assert Target(w.watches[j].route) == Channel(id);
    }
  }

  /**
   A consumer that is idle and whose watches are all stopped stays idle
   through any run that does not register it again, whatever other
   consumers register: no flush ever fires for it.
   */
  lemma {:induction false} SilencedConsumerStaysIdle<V>(w: World<V>, c: Consumer, events: seq<Event<V>>)
    requires c !in w.coalescer.pending && Silenced(w, c)
    requires forall i :: 0 <= i < |events| ==> !Registers(events[i], c)
    ensures c !in Run(w, events).coalescer.pending
    decreases |events|
  {
    if events != [] {
      SilencedStep(w, c, events[0]);
      assert forall i :: 0 <= i < |events[1..]| ==> !Registers(events[1..][i], c);
      SilencedConsumerStaysIdle(Step(w, events[0]).0, c, events[1..]);
    }
  }

  /**
   Teardown only calls stop handles: it keeps every pending entry and every
   queued flush, so a flush queued before teardown still runs after it.
   */
  lemma TeardownKeepsPendingFlushes<V>(w: World<V>, e: Event<V>)
    requires IsTeardown(e)
    ensures Step(w, e).0.coalescer == w.coalescer
    ensures Step(w, e).0.instances == w.instances
    ensures Step(w, e).0.stateWritables == w.stateWritables && Step(w, e).0.selectorWritables == w.selectorWritables
  {
  }

  // ---- on every run ----

  /**
   Every event keeps the queue consistent, with no condition on the run: a
   queued flush always finds its entry, so the only task that can throw is
   a Svelte flush with a key that addresses no writable.
   */
  lemma StepConsistent<V>(w: World<V>, e: Event<V>)
    requires Coalescer.Consistent(w.coalescer)
    ensures Coalescer.Consistent(Step(w, e).0.coalescer)
    ensures Step(w, e).1 == TaskThrew ==> e.RunNextTask? && w.coalescer.queue[0].Channel?
  {
    if IsRegistration(e) {
      RegistrationKeepsCoalescer(w, e);
    } else if IsTeardown(e) {
      TeardownKeepsPendingFlushes(w, e);
    }
  }

  /**
   Along every run, admissible or not, at most one flush per consumer is
   queued and every queued flush finds its consumer's entry.
   */
  lemma {:induction false} RunConsistent<V>(w: World<V>, events: seq<Event<V>>)
    requires Coalescer.Consistent(w.coalescer)
    ensures Coalescer.Consistent(Run(w, events).coalescer)
    decreases |events|
  {
    if events != [] {
      StepConsistent(w, events[0]);
      RunConsistent(Step(w, events[0]).0, events[1..]);
    }
  }

  /** Every key pending for a Svelte id is one the slot encoder produces. */
  ghost predicate KeysCanonical<V>(s: Coalescer.State<Consumer, string, V>) {
    forall c, k :: c in s.pending && c.Channel? && k in s.pending[c] ==> SlotKeys.Canonical(k)
  }

  /** A change only ever records encoder keys for a Svelte id. */
  lemma {:induction false} FireKeysCanonical<V>(s: Coalescer.State<Consumer, string, V>, watches: seq<Watch>, source: nat, v: V, from: nat)
    requires KeysCanonical(s)
    ensures KeysCanonical(Fire(s, watches, source, v, from))
    decreases |watches| - from
  {
    if from < |watches| {
      var route := watches[from].route;
      var s1 := if Fires(watches[from], source) then Coalescer.Record(s, Target(route), UpdateOf(route, v)) else s;
      if Fires(watches[from], source) && route.PushSlot? {
        SlotKeys.EncodeCanonical(route.slot);
      }
      assert KeysCanonical(s1);
      FireKeysCanonical(s1, watches, source, v, from + 1);
    }
  }

  /** Every event keeps the pending Svelte keys encoder keys, with no condition on the run. */
  lemma StepKeysCanonical<V>(w: World<V>, e: Event<V>)
    requires KeysCanonical(w.coalescer)
    ensures KeysCanonical(Step(w, e).0.coalescer)
  {
    if IsRegistration(e) {
      RegistrationKeepsCoalescer(w, e);
    } else if IsTeardown(e) {
      TeardownKeepsPendingFlushes(w, e);
    } else if e.Change? {
      FireKeysCanonical(w.coalescer, w.watches, e.source, e.value, 0);
    }
  }

  /**
   On every run from a store whose pending Svelte keys are encoder keys (the
   initial store has none), every pending Svelte key stays one: the key
   `ApplyBatch` decodes is always of the form `state<i>` or `selector<i>`.
   */
  lemma {:induction false} RunKeysCanonical<V>(w: World<V>, events: seq<Event<V>>)
    requires KeysCanonical(w.coalescer)
    ensures KeysCanonical(Run(w, events).coalescer)
    decreases |events|
  {
    if events != [] {
      StepKeysCanonical(w, events[0]);
      RunKeysCanonical(Step(w, events[0]).0, events[1..]);
    }
  }

  /** An Angular flush queued before `ngOnDestroy` still assigns the destroyed instance's fields. */
  lemma FlushAfterDestroyStillAssigns<V>(w: World<V>, inst: nat)
    requires Coalescer.Consistent(w.coalescer) && w.coalescer.queue != [] && w.coalescer.queue[0] == Component(inst)
    ensures var r := RunNext(Destroy(w, inst)).0;
      InstanceOf(r, inst).fields == InstanceOf(w, inst).fields + w.coalescer.pending[Component(inst)]
  {
    var d := Destroy(w, inst);
    assert d.coalescer == w.coalescer && d.instances == w.instances;
    FlushComponentAssignsBatch(d);
  }

  /** Calling the same stop handles again changes nothing. */
  lemma StopIdempotent<V>(w: World<V>, handles: seq<nat>)
    ensures Stop(Stop(w, handles), handles) == Stop(w, handles)
  {
    var once := Stop(w, handles);
    var twice := Stop(once, handles);
    assert twice.watches == once.watches;
  }

  /** Running a teardown a second time changes nothing. */
  lemma TeardownIdempotent<V>(w: World<V>, e: Event<V>)
    requires IsTeardown(e)
    ensures Step(Step(w, e).0, e).0 == Step(w, e).0
  {
    var w1 := Step(w, e).0;
    match e
    case UnmountView(view) =>
      if view in w.viewCleanups {
        StopIdempotent(w, w.viewCleanups[view]);
      }
    case DestroyComponent(inst) =>
      var hs := StoppedBy(HookSteps(w, inst, InstanceOf(w, inst).onDestroy));
      assert HookSteps(w1, inst, InstanceOf(w1, inst).onDestroy) == HookSteps(w, inst, InstanceOf(w, inst).onDestroy) by {
        HookStepsFrame(w, w1, inst, InstanceOf(w, inst).onDestroy);
      }
      StopIdempotent(w, hs);
    case DestroySvelte(id) =>
      CleanupHandlesFrame(w, w1, id, CleanupsOf(w, id));
      StopIdempotent(w, CleanupHandles(w, id, CleanupsOf(w, id)));
  }

  lemma {:induction false} HookStepsFrame<V>(w: World<V>, r: World<V>, inst: nat, hook: Hook)
    requires r.stateStops == w.stateStops && r.selectorStops == w.selectorStops
    ensures HookSteps(r, inst, hook) == HookSteps(w, inst, hook)
  {
    match hook
    case NoHook =>
    case UserHook =>
    case StopThen(kind, next) => HookStepsFrame(w, r, inst, next);
  }

  lemma {:induction false} CleanupHandlesFrame<V>(w: World<V>, r: World<V>, id: string, kinds: seq<ListKind>)
    requires r.stateStops == w.stateStops && r.selectorStops == w.selectorStops
    ensures CleanupHandles(r, id, kinds) == CleanupHandles(w, id, kinds)
    decreases |kinds|
  {
    if kinds != [] {
      CleanupHandlesFrame(w, r, id, kinds[1..]);
    }
  }

  // ---- Angular destroy hooks ----

  /** A completed `useStateNg`/`useSelectorsNg` wraps the hook the instance had, and records one stop per entry. */
  lemma RegisterNgWraps<V>(w: World<V>, inst: nat, kind: ListKind, entries: seq<(string, Item<V>)>)
    requires RegisterNg(w, inst, kind, entries).1 == Completed
    ensures var r := RegisterNg(w, inst, kind, entries).0;
      && InstanceOf(r, inst).onDestroy == StopThen(kind, InstanceOf(w, inst).onDestroy)
      && |StopsOf(r, kind, Component(inst))| == |entries|
      && (kind == SelectorList ==> StopsOf(r, StateList, Component(inst)) == StopsOf(w, StateList, Component(inst)))
  {
    var g := if kind == StateList then SubStateOnly else Unchecked;
    var reg := WatchAll(w, g, NgRoutes(inst, entries), NgItems(entries));
    assert InstanceOf(reg.world, inst).onDestroy == InstanceOf(w, inst).onDestroy;
    assert !reg.rejected;
  }

  /**
   After `useStateAndSelectorsNg`, `ngOnDestroy` stops the selector watches,
   then the sub-state watches, then calls the hook the instance had before.
   */
  lemma NgDestroyOrder<V>(w: World<V>, inst: nat, subStateMap: seq<(string, Item<V>)>, selectorMap: seq<(string, Item<V>)>)
    requires FirstRejected(SubStateOnly, NgItems(subStateMap)).None?
    ensures var r := RegisterNgBoth(w, inst, subStateMap, selectorMap).0;
      var original := InstanceOf(w, inst).onDestroy;
      && InstanceOf(r, inst).onDestroy == StopThen(SelectorList, StopThen(StateList, original))
      && HookSteps(r, inst, InstanceOf(r, inst).onDestroy) ==
           StopSteps(StopsOf(r, SelectorList, Component(inst)))
           + StopSteps(StopsOf(r, StateList, Component(inst)))
           + HookSteps(r, inst, original)
      && |StopsOf(r, StateList, Component(inst))| == |subStateMap|
      && |StopsOf(r, SelectorList, Component(inst))| == |selectorMap|
  {
    var w1 := RegisterNg(w, inst, StateList, subStateMap).0;
    var r := RegisterNgBoth(w, inst, subStateMap, selectorMap).0;
    var original := InstanceOf(w, inst).onDestroy;
    assert RegisterNg(w, inst, StateList, subStateMap).1 == Completed && r == RegisterNg(w1, inst, SelectorList, selectorMap).0;
    RegisterNgWraps(w, inst, StateList, subStateMap);
    RegisterNgWraps(w1, inst, SelectorList, selectorMap);
    TwoStopsSteps(r, inst, original);
  }

  /** A hook wrapped twice stops the outer list, then the inner one, then runs what it wrapped. */
  lemma TwoStopsSteps<V>(w: World<V>, inst: nat, original: Hook)
    ensures HookSteps(w, inst, StopThen(SelectorList, StopThen(StateList, original))) ==
      StopSteps(StopsOf(w, SelectorList, Component(inst)))
      + StopSteps(StopsOf(w, StateList, Component(inst)))
      + HookSteps(w, inst, original)
  {
    var a := StopSteps(StopsOf(w, SelectorList, Component(inst)));
    var b := StopSteps(StopsOf(w, StateList, Component(inst)));
    var c := HookSteps(w, inst, original);
    assert a + (b + c) == a + b + c;
  }

  /** With a hook of its own, the instance's own `ngOnDestroy` runs last, after every stop. */
  lemma NgOwnHookRunsLast<V>(w: World<V>, inst: nat, subStateMap: seq<(string, Item<V>)>, selectorMap: seq<(string, Item<V>)>)
    requires InstanceOf(w, inst).onDestroy == UserHook
    requires FirstRejected(SubStateOnly, NgItems(subStateMap)).None?
    ensures var r := RegisterNgBoth(w, inst, subStateMap, selectorMap).0;
      var steps := HookSteps(r, inst, InstanceOf(r, inst).onDestroy);
      && |steps| == |subStateMap| + |selectorMap| + 1
      && steps[|steps| - 1] == UserDestroyRan
      && (forall i :: 0 <= i < |steps| - 1 ==> steps[i].Stopped?)
  {
    NgDestroyOrder(w, inst, subStateMap, selectorMap);
    UserHookLast(RegisterNgBoth(w, inst, subStateMap, selectorMap).0, inst);
  }

  /** Behind two stop lists, the instance's own hook is the last step and every step before it is a stop. */
  lemma UserHookLast<V>(r: World<V>, inst: nat)
    ensures var steps := StopSteps(StopsOf(r, SelectorList, Component(inst)))
                         + StopSteps(StopsOf(r, StateList, Component(inst)))
                         + HookSteps(r, inst, UserHook);
      && |steps| == |StopsOf(r, SelectorList, Component(inst))| + |StopsOf(r, StateList, Component(inst))| + 1
      && steps[|steps| - 1] == UserDestroyRan
      && (forall i :: 0 <= i < |steps| - 1 ==> steps[i].Stopped?)
  {
    var a := StopSteps(StopsOf(r, SelectorList, Component(inst)));
    var b := StopSteps(StopsOf(r, StateList, Component(inst)));
    var steps := a + b + HookSteps(r, inst, UserHook);
    forall i | 0 <= i < |steps| - 1
      ensures steps[i].Stopped?
    {
      if i < |a| { assert steps[i] == a[i]; } else { assert steps[i] == b[i - |a|]; }
    }
  }

  // ---- rejected registrations ----

  /**
   A React registration that meets an invalid item throws after watching
   every item before it; no cleanup is registered, so unmounting the view
   leaves those watches running.
   */
  lemma RejectedReactRegistrationLeaks<V>(w: World<V>, view: nat, subStates: seq<Item<V>>, selectors: seq<Item<V>>)
    requires view !in w.viewCleanups
    requires FirstRejected(SubStateOrComputed, subStates + selectors).Some?
    ensures var (r, o) := RegisterReact(w, view, subStates, selectors);
      var n := FirstRejected(SubStateOrComputed, subStates + selectors).value;
      var u := Unmount(r, view);
      && o == InvalidSubState
      && |r.watches| == |w.watches| + n
      && (forall j :: |w.watches| <= j < |r.watches| ==> u.watches[j].active && u.watches[j].route == MarkView(view))
  {
    var items := subStates + selectors;
    var routes := ReactRoutes(view, |items|);
    var reg := WatchAll(w, SubStateOrComputed, routes, items);
    assert RegisterReact(w, view, subStates, selectors) == (reg.world, InvalidSubState);
    WatchesStayActive(w, SubStateOrComputed, view, items, reg);
  }

  /** The watches a React registration appended keep running when the view has no cleanup. */
  lemma WatchesStayActive<V>(w: World<V>, g: Guard, view: nat, items: seq<Item<V>>, reg: Registered<V>)
    requires view !in w.viewCleanups
    requires Watched(w, g, ReactRoutes(view, |items|), items, reg)
    ensures var u := Unmount(reg.world, view);
      forall j :: |w.watches| <= j < |reg.world.watches| ==> u.watches[j].active && u.watches[j].route == MarkView(view)
  {
    var routes := ReactRoutes(view, |items|);
    assert view !in reg.world.viewCleanups;
    forall j | |w.watches| <= j < |reg.world.watches|
      ensures reg.world.watches[j].active && reg.world.watches[j].route == MarkView(view)
    {
      var i := j - |w.watches|;
      assert 0 <= i < |reg.handles|;
      assert reg.world.watches[|w.watches| + i] == Watch(items[i].source, routes[i], true);
    }
  }

  /**
   An Angular sub-state registration that meets an unflagged item throws:
   the stop list holds the watches made so far but `ngOnDestroy` is not
   wrapped by this call, so unless an earlier registration of the instance
   already wrapped it, destroying the instance does not stop them.
   */
  lemma RejectedNgRegistrationIsNotWrapped<V>(w: World<V>, inst: nat, subStateMap: seq<(string, Item<V>)>)
    requires FirstRejected(SubStateOnly, NgItems(subStateMap)).Some?
    ensures var (r, o) := RegisterNg(w, inst, StateList, subStateMap);
      && o == InvalidSubState
      && |StopsOf(r, StateList, Component(inst))| == FirstRejected(SubStateOnly, NgItems(subStateMap)).value
      && InstanceOf(r, inst).onDestroy == InstanceOf(w, inst).onDestroy
  {
  }

  // ---- Svelte re-registration ----

  /** An Angular registration leaves the pending maps and the queue as they were. */
  lemma RegisterNgKeepsCoalescer<V>(w: World<V>, inst: nat, kind: ListKind, entries: seq<(string, Item<V>)>)
    ensures RegisterNg(w, inst, kind, entries).0.coalescer == w.coalescer
  {
    var g := if kind == StateList then SubStateOnly else Unchecked;
    assert WatchAll(w, g, NgRoutes(inst, entries), NgItems(entries)).world.coalescer == w.coalescer;
  }

  /** A Svelte registration leaves the pending maps and the queue as they were. */
  lemma RegisterSvelteKeepsCoalescer<V>(w: World<V>, id: string, kind: ListKind, items: seq<Item<V>>)
    ensures RegisterSvelte(w, id, kind, items).coalescer == w.coalescer
  {
    var initial := seq(|items|, i requires 0 <= i < |items| => items[i].value);
    var w0 := Replaced(w, id, kind, initial);
    assert WatchAll(w0, Unchecked, SvelteRoutes(id, kind, |items|), items).world.coalescer == w.coalescer;
  }

  /** Registrations install watches and bookkeeping but leave the pending maps and the queue alone. */
  lemma RegistrationKeepsCoalescer<V>(w: World<V>, e: Event<V>)
    requires IsRegistration(e)
    ensures Step(w, e).0.coalescer == w.coalescer
  {
    if e.UseReact? {
      var items := e.subStates + e.selectors;
      assert WatchAll(w, SubStateOrComputed, ReactRoutes(e.view, |items|), items).world.coalescer == w.coalescer;
    } else if e.UseStateNg? {
      RegisterNgKeepsCoalescer(w, e.instance, StateList, e.subStateMap);
    } else if e.UseSelectorsNg? {
      RegisterNgKeepsCoalescer(w, e.instance, SelectorList, e.selectorMap);
    } else if e.UseStateAndSelectorsNg? {
      RegisterNgKeepsCoalescer(w, e.instance, StateList, e.subStateMap);
      RegisterNgKeepsCoalescer(RegisterNg(w, e.instance, StateList, e.subStateMap).0, e.instance, SelectorList, e.selectorMap);
    } else if e.UseStateSvelte? {
      RegisterSvelteKeepsCoalescer(w, e.id, StateList, e.subStates);
    } else {
      RegisterSvelteKeepsCoalescer(w, e.id, SelectorList, e.selectors);
    }
  }

  /** A pending consumer with no queued flush stays so across any single event. */
  lemma OrphanStep<V>(w: World<V>, c: Consumer, e: Event<V>)
    requires c in w.coalescer.pending && c !in w.coalescer.queue
    ensures c in Step(w, e).0.coalescer.pending && c !in Step(w, e).0.coalescer.queue
  {
    if IsRegistration(e) {
      RegistrationKeepsCoalescer(w, e);
    } else if IsTeardown(e) {
      TeardownKeepsPendingFlushes(w, e);
    } else if e.RunNextTask? {
      RunNextFrame(w);
    }
  }

  /**
   When an id stays pending with no flush queued, nothing ever queues one
   again: the channel's writables are never updated by a later change.
   */
  lemma {:induction false} OrphanedEntryIsPermanent<V>(w: World<V>, c: Consumer, events: seq<Event<V>>)
    requires c in w.coalescer.pending && c !in w.coalescer.queue
    ensures c in Run(w, events).coalescer.pending && c !in Run(w, events).coalescer.queue
    decreases |events|
  {
    if events != [] {
      OrphanStep(w, c, events[0]);
      OrphanedEntryIsPermanent(Step(w, events[0]).0, c, events[1..]);
    }
  }

  /** What a Svelte sub-state registration leaves behind: one fresh watch per item, the items' values, no new flush. */
  lemma RegisterSvelteStatesShape<V>(w: World<V>, id: string, items: seq<Item<V>>)
    ensures var r := RegisterSvelte(w, id, StateList, items);
      && |r.watches| == |w.watches| + |items|
      && r.watches[..|w.watches|] == w.watches
      && (forall j :: 0 <= j < |items| ==>
            r.watches[|w.watches| + j] == Watch(items[j].source, PushSlot(id, SlotKeys.StateSlot(j)), true))
      && StatesOf(r, id) == seq(|items|, i requires 0 <= i < |items| => items[i].value)
      && r.coalescer == w.coalescer
  {
    var r := RegisterSvelte(w, id, StateList, items);
    var added := SvelteWatches(id, StateList, items);
    assert forall j :: 0 <= j < |items| ==> r.watches[|w.watches| + j] == added[j];
  }


  /** The watches after the two registrations: the stale one on source 1 sits in the middle. */
  function ShrinkWatches(): seq<Watch> {
    [Watch(0, PushSlot("a", SlotKeys.StateSlot(0)), true),
     Watch(1, PushSlot("a", SlotKeys.StateSlot(1)), true),
     Watch(0, PushSlot("a", SlotKeys.StateSlot(0)), true)]
  }

  /** The coalescer after the change of source 1: "a" holds state1's value and is queued. */
  function ShrinkQueued(): Coalescer.State<Consumer, string, int> {
    Coalescer.State(map[Channel("a") := map[SlotKeys.Encode(SlotKeys.StateSlot(1)) := 7]], [Channel("a")])
  }

  /** The first event of the counterexample: "a" registered over sources 0 and 1. */
  lemma ShrinkFirst(w0: World<int>, e: Event<int>)
    requires w0.watches == [] && w0.coalescer == Coalescer.Initial()
    requires e.UseStateSvelte? && e.id == "a" && |e.subStates| == 2
    requires e.subStates[0].source == 0 && e.subStates[1].source == 1
    ensures Step(w0, e).1 == Completed
    ensures Step(w0, e).0.watches == ShrinkWatches()[..2]
    ensures Step(w0, e).0.coalescer == Coalescer.Initial()
  {
    StepShapes(w0, e);
    var w1 := Step(w0, e).0;
    RegisterSvelteStatesShape(w0, "a", e.subStates);
    var ws := w1.watches;
    assert ws == [ws[0], ws[1]];
  }

  /** The second event: "a" registered again over source 0 only; the watch on source 1 stays. */
  lemma ShrinkSecond(w1: World<int>, e: Event<int>)
    requires w1.watches == ShrinkWatches()[..2] && w1.coalescer == Coalescer.Initial()
    requires e.UseStateSvelte? && e.id == "a" && |e.subStates| == 1
    requires e.subStates[0].source == 0 && e.subStates[0].value == 10
    ensures Step(w1, e).1 == Completed
    ensures Step(w1, e).0.watches == ShrinkWatches()
    ensures StatesOf(Step(w1, e).0, "a") == [10]
    ensures Step(w1, e).0.coalescer == Coalescer.Initial()
  {
    StepShapes(w1, e);
    var w2 := Step(w1, e).0;
    RegisterSvelteStatesShape(w1, "a", e.subStates);
    var ws := w2.watches;
    assert ws == ws[..2] + [ws[2]];
    var vs := StatesOf(w2, "a");
    assert vs == [vs[0]];
  }

  /** One callback of a change, then the rest. */
  lemma FireAt<V>(s: Coalescer.State<Consumer, string, V>, watches: seq<Watch>, source: nat, v: V, from: nat)
    ensures from >= |watches| ==> Fire(s, watches, source, v, from) == s
    ensures from < |watches| && !Fires(watches[from], source) ==>
      Fire(s, watches, source, v, from) == Fire(s, watches, source, v, from + 1)
    ensures from < |watches| && Fires(watches[from], source) ==>
      Fire(s, watches, source, v, from)
      == Fire(Coalescer.Record(s, Target(watches[from].route), UpdateOf(watches[from].route, v)), watches, source, v, from + 1)
  {
  }

  /** The third event: a change of source 1 reaches only the stale watch, which queues "a". */
  lemma ShrinkChange(s: Coalescer.State<Consumer, string, int>, ws: seq<Watch>, source: nat, v: int)
    requires s == Coalescer.Initial() && ws == ShrinkWatches() && source == 1 && v == 7
    ensures Fire(s, ws, source, v, 0) == ShrinkQueued()
  {
    var recorded := Coalescer.Record(s, Channel("a"), UpdateOf(ws[1].route, v));
    assert recorded.pending[Channel("a")] == ShrinkQueued().pending[Channel("a")];
    assert recorded.pending == ShrinkQueued().pending;
    assert !Fires(ws[0], source) && Fires(ws[1], source) && !Fires(ws[2], source);
    FireAt(s, ws, source, v, 0);
    FireAt(s, ws, source, v, 1);
    FireAt(recorded, ws, source, v, 2);
    FireAt(recorded, ws, source, v, 3);
  }

  /** The fourth event: the queued flush finds no writable for state1 and throws before deleting the entry. */
  lemma ShrinkFlush(w: World<int>)
    requires w.coalescer == ShrinkQueued()
    requires StatesOf(w, "a") == [10]
    ensures RunNext(w).1 == TaskThrew
    ensures RunNext(w).0.coalescer == ShrinkQueued().(queue := [])
    ensures StatesOf(RunNext(w).0, "a") == [10]
  {
    var key := SlotKeys.Encode(SlotKeys.StateSlot(1));
    SlotKeys.DecodeEncode(SlotKeys.StateSlot(1));
    assert !ChannelFlush.Resolves(key, 1, |SelectorsOf(w, "a")|);
    assert ChannelFlush.ApplyBatch(map[key := 7], StatesOf(w, "a"), SelectorsOf(w, "a")).None?;
  }

  /** The third event as a step of the store. */
  lemma ShrinkChangeStep(w: World<int>, e: Event<int>)
    requires w.coalescer == Coalescer.Initial() && w.watches == ShrinkWatches() && StatesOf(w, "a") == [10]
    requires e == Change(1, 7)
    ensures Step(w, e).1 == Completed
    ensures Step(w, e).0.coalescer == ShrinkQueued() && StatesOf(Step(w, e).0, "a") == [10]
  {
    StepShapes(w, e);
    ShrinkChange(w.coalescer, w.watches, e.source, e.value);
  }

  /** The fourth event as a step of the store. */
  lemma ShrinkFlushStep(w: World<int>, e: Event<int>)
    requires w.coalescer == ShrinkQueued() && StatesOf(w, "a") == [10]
    requires e == RunNextTask
    ensures Step(w, e).1 == TaskThrew
    ensures Step(w, e).0.coalescer == ShrinkQueued().(queue := []) && StatesOf(Step(w, e).0, "a") == [10]
  {
    StepShapes(w, e);
    ShrinkFlush(w);
  }

  /**
   Registering id "a" with two sub-states and then again with one leaves
   the first registration's watch on state1 running; its next change
   queues a flush that throws on the missing writable before deleting the
   entry, and the id then stays pending with no flush queued.
   */
  lemma {:induction false} ShrinkingReRegistrationStallsChannel(w0: World<int>, events: seq<Event<int>>)
    requires w0.watches == [] && w0.coalescer == Coalescer.Initial()
    requires events == [
      UseStateSvelte("a", [Item(0, false, true, 10), Item(1, false, true, 11)]),
      UseStateSvelte("a", [Item(0, false, true, 10)]),
      Change(1, 7),
      RunNextTask]
    ensures Outcomes(w0, events) == [Completed, Completed, Completed, TaskThrew]
    ensures Channel("a") in Run(w0, events).coalescer.pending && Channel("a") !in Run(w0, events).coalescer.queue
    ensures StatesOf(Run(w0, events), "a") == [10]
  {
    ShrinkFirst(w0, events[0]);
    var w1 := Step(w0, events[0]).0;
    RunUnfold(w0, events);
    ShrinkRest(w1, events[1..]);
  }

  /** The last three events, from the world the first registration leaves. */
  lemma {:induction false} ShrinkRest(w1: World<int>, events: seq<Event<int>>)
    requires w1.watches == ShrinkWatches()[..2] && w1.coalescer == Coalescer.Initial()
    requires events == [UseStateSvelte("a", [Item(0, false, true, 10)]), Change(1, 7), RunNextTask]
    ensures Outcomes(w1, events) == [Completed, Completed, TaskThrew]
    ensures Run(w1, events).coalescer == ShrinkQueued().(queue := []) && StatesOf(Run(w1, events), "a") == [10]
  {
    ShrinkSecond(w1, events[0]);
    RunUnfold(w1, events);
    ShrinkTail(Step(w1, events[0]).0, events[1..]);
  }

  /** The change and the flush, from the world both registrations leave. */
  lemma {:induction false} ShrinkTail(w2: World<int>, events: seq<Event<int>>)
    requires w2.coalescer == Coalescer.Initial() && w2.watches == ShrinkWatches() && StatesOf(w2, "a") == [10]
    requires events == [Change(1, 7), RunNextTask]
    ensures Outcomes(w2, events) == [Completed, TaskThrew]
    ensures Run(w2, events).coalescer == ShrinkQueued().(queue := []) && StatesOf(Run(w2, events), "a") == [10]
  {
    ShrinkChangeStep(w2, events[0]);
    RunUnfold(w2, events);
    var w3 := Step(w2, events[0]).0;
    ShrinkFlushStep(w3, events[1]);
    RunUnfold(w3, events[1..]);
    assert events[1..][1..] == [];
  }

  /** The steps the counterexample takes, one event kind at a time. */
  lemma StepShapes<V>(w: World<V>, e: Event<V>)
    ensures e.UseStateSvelte? ==> Step(w, e) == (RegisterSvelte(w, e.id, StateList, e.subStates), Completed)
    ensures e.Change? ==> Step(w, e) == (Notify(w, e.source, e.value), Completed)
    ensures e.RunNextTask? ==> Step(w, e) == RunNext(w)
  {
  }

  /** A run is its first step followed by the run of the rest. */
  lemma RunUnfold<V>(w: World<V>, events: seq<Event<V>>)
    requires events != []
    ensures Run(w, events) == Run(Step(w, events[0]).0, events[1..])
    ensures Outcomes(w, events) == [Step(w, events[0]).1] + Outcomes(Step(w, events[0]).0, events[1..])
  {
  }
}

=== FILE: validation.dfy ===
/**
 The guards a registration applies to each watched item before watching it.
 The React path accepts a computed ref (`'effect' in subState`) or an object
 whose `__isSubState__` flag is set; the Angular state path accepts only the
 flag; the Angular selector path and both Svelte paths check nothing.
 */
module Validation {
  import opened Wrappers

  /**
   A value handed to a registration call. `source` identifies the reactive
   object the watch follows; `value` is what the adapter writes into a field
   or writable on registration (the sub-state itself, or `selector.value`).
   */
  datatype Item<V> = Item(source: nat, isComputed: bool, isSubState: bool, value: V)

  datatype Guard = SubStateOrComputed | SubStateOnly | Unchecked

  predicate Accepts<V>(g: Guard, item: Item<V>) {
    match g
    case SubStateOrComputed => item.isComputed || item.isSubState
    case SubStateOnly => item.isSubState
    case Unchecked => true
  }

  /**
   The position at which the `forEach` throws, if any: the first item the
   guard rejects. Every item before it has already been watched.
   */
  function FirstRejected<V>(g: Guard, items: seq<Item<V>>): (r: Option<nat>)
    ensures r.None? <==> forall i :: 0 <= i < |items| ==> Accepts(g, items[i])
    ensures r.Some? ==> r.value < |items| && !Accepts(g, items[r.value])
    ensures r.Some? ==> forall i :: 0 <= i < r.value ==> Accepts(g, items[i])
  {
    if items == [] then None
    else if !Accepts(g, items[0]) then Some(0)
    else
      match FirstRejected(g, items[1..])
      case None => None
      case Some(i) => Some(i + 1)
  }

  /** How many items are watched before the registration returns or throws. */
  function WatchedCount<V>(g: Guard, items: seq<Item<V>>): (n: nat)
    ensures n <= |items|
    ensures n == |items| <==> FirstRejected(g, items).None?
    ensures n < |items| ==> FirstRejected(g, items) == Some(n)
  {
    match FirstRejected(g, items)
    case None => |items|
    case Some(i) => i
  }
}

=== FILE: wrappers.dfy ===
/** Optional values used across the model. */
module Wrappers {

  /** A value that may be absent: JavaScript's `undefined` or `NaN` results. */
  datatype Option<+T> = None | Some(value: T)
}
